=== FILE: README.md ===
# shareit core in Dafny

A model of the business rules of the shareit item-sharing backend, with proofs. Users list items. Other users book them for a time interval, and the owner approves or rejects each booking. A user who finished a rental may comment on the item. Users post item requests, and other users answer them with items.

The model is functional. Every service call takes the database state and returns either an error or the new state together with the view the call returns. A failed call returns no state, so nothing changes. The modules follow the Java packages:

- `Common`, `Entities`, `Validation`: identifiers, nullable fields as `Option`, the four exception kinds as `Error`, the records and views, and the item and email validations.
- `Tables`, `Store`, `Seqs`, `Paging`: a JPA table as keyed rows plus an identity sequence; the database of five tables; filtering and sorting; `PageRequest.of(from / size, size)`.
- `UserMapper`, `ItemMapper`, `BookingMapper`, `CommentMapper`, `ItemRequestMapper`: the mappers.
- `UserRepositoryImpl`, `ItemRepositoryImpl`: the in-memory repositories (a map plus an id counter).
- `BookingRepository`, `ItemRequestRepository`: the JPA finders the services call.
- `UserService`, `ItemService`, `BookingService`: the JPA-backed services.
- `ItemRequestService`: the request service in its per-request form.
- `BatchedItemRequestService`: the listings of the batched copy under `server/`, as written and grouped. Its `addItemRequest` and `getItemRequestById` match the per-request copy line for line, so `ItemRequestService` models them for both.

The clock is a parameter: `now` is an integer instant read once per call. The repository finders the services call are modelled, except the text search noted under "Left out". Finders return rows in table order, and ordering clauses are modelled by a stable sort on the key, so ties keep table order.

## Model

| member | source | states |
|---|---|---|
| Validation.ValidateItem | src/main/java/ru/practicum/shareit/item/service/ItemService.java:193-203 | an item passes exactly when name and description are non-blank and availability is set; the name failure is reported before the description failure, which is reported before the availability failure |
| Validation.ValidEmailHasVisibleChar | src/main/java/ru/practicum/shareit/user/service/UserService.java:75-80 | an email is accepted exactly when it is non-null and has a character that is not Java whitespace, so an accepted email is non-empty; the in-memory repository's check at `UserRepositoryImpl.java:72-77` is the same |
| UserMapper.ToUserDto | src/main/java/ru/practicum/shareit/user/mapper/UserMapper.java:10-16 | the view carries the given id and the user's email and name |
| UserMapper.ToUser | src/main/java/ru/practicum/shareit/user/mapper/UserMapper.java:18-24 | mapping a view to a user and back gives the view re-keyed to the given id |
| UserMapper.UserRoundTrip | src/main/java/ru/practicum/shareit/user/mapper/UserMapper.java:10-24 | rebuilding a user from its own view loses nothing but the id |
| ItemMapper.ToItem | src/main/java/ru/practicum/shareit/item/mapper/ItemMapper.java:8-16 | the item takes the explicit id and owner and no request; viewing it again gives back the view with that id |
| ItemMapper.ToItemDto | src/main/java/ru/practicum/shareit/item/mapper/ItemMapper.java:18-25 | the view has the given id and the item's name, description and availability |
| ItemMapper.ViewHidesOwner | src/main/java/ru/practicum/shareit/item/mapper/ItemMapper.java:18-25 | items that differ only in owner or request have the same view |
| BookingMapper.ToBooking | src/main/java/ru/practicum/shareit/booking/mapper/BookingMapper.java:17-25 | a new booking has no id yet and the given item, booker and status; every view of it shows the requested interval and that status |
| BookingMapper.ToBookingDto | src/main/java/ru/practicum/shareit/booking/mapper/BookingMapper.java:27-37 | the view copies id, interval and status and embeds the given item and booker views unchanged |
| BookingMapper.ToBookingForItemDto | src/main/java/ru/practicum/shareit/booking/mapper/BookingMapper.java:39-44 | the last/next view shows only the booking id and the booker id |
| BookingMapper.ItemBookingViewHidesRest | src/test/java/ru/practicum/shareit/booking/BookingJsonTest.java:58-63 | two bookings with the same id and booker id have the same last/next view |
| CommentMapper.ToComment | src/main/java/ru/practicum/shareit/item/comment/mapper/CommentMapper.java:15-23 | the comment keeps the item and author; its view shows the text, the author's name and the given instant |
| CommentMapper.ToOutCommentDto | src/main/java/ru/practicum/shareit/item/comment/mapper/CommentMapper.java:25-32 | the view replaces the author by the author's name |
| CommentMapper.ViewHidesItemAndAuthor | src/main/java/ru/practicum/shareit/item/comment/mapper/CommentMapper.java:25-32 | comments that differ only in item and in author fields other than the name have the same view |
| ItemRequestMapper.ToItemRequest | src/main/java/ru/practicum/shareit/request/mapper/ItemRequestMapper.java:17-24 | the request keeps the requestor; its short view is the incoming id and description with the given creation instant |
| ItemRequestMapper.ToOutItemRequestDto | src/main/java/ru/practicum/shareit/request/mapper/ItemRequestMapper.java:26-32 | the short view shows id, description and creation instant |
| ItemRequestMapper.ShortViewHidesRequestor | src/main/java/ru/practicum/shareit/request/mapper/ItemRequestMapper.java:26-32 | the short view does not depend on the requestor |
| ItemRequestMapper.ToOutLongItemRequestDto | src/main/java/ru/practicum/shareit/request/mapper/ItemRequestMapper.java:34-41 | the long view agrees with the short view and carries the given item views unchanged and in order |
| UserRepositoryImpl.Empty | src/main/java/ru/practicum/shareit/user/repository/UserRepositoryImpl.java:16-17 | a fresh repository is empty, well formed and has distinct emails |
| UserRepositoryImpl.AddUser | src/main/java/ru/practicum/shareit/user/repository/UserRepositoryImpl.java:20-28 | an invalid email fails validation, then a taken email fails as a conflict, and otherwise the add succeeds; id 0 draws the counter; the user is stored under its id; distinct emails stay distinct |
| UserRepositoryImpl.FirstCounterIdIsOne | src/main/java/ru/practicum/shareit/user/repository/UserRepositoryImpl.java:17-28 | the first user added with id 0 gets id 1 and the counter moves to 2 |
| UserRepositoryImpl.Merge | src/main/java/ru/practicum/shareit/user/repository/UserRepositoryImpl.java:36-40 | supplied email and name win; null ones keep the stored values |
| UserRepositoryImpl.UpdateUser | src/main/java/ru/practicum/shareit/user/repository/UserRepositoryImpl.java:31-48 | an unknown id fails; a conflict happens exactly when the name is null, the email changes and is taken; a bad merged email fails validation; success replaces only that entry; distinctness is kept only when the name is null |
| UserRepositoryImpl.DistinctAfterCheckedReplace | src/main/java/ru/practicum/shareit/user/repository/UserRepositoryImpl.java:79-86 | replacing one user keeps emails distinct when the new email is unchanged or not taken |
| UserRepositoryImpl.UpdateWithNameDuplicatesEmail | src/main/java/ru/practicum/shareit/user/repository/UserRepositoryImpl.java:39-44 | with two users of distinct emails, an update that supplies a name and the other user's email succeeds and leaves two users with the same email |
| UserRepositoryImpl.UpdateUserChecked | src/main/java/ru/practicum/shareit/user/repository/UserRepositoryImpl.java:31-48 | with the uniqueness check applied whenever the email changes: same result as the original when the name is null, and emails always stay distinct |
| UserRepositoryImpl.GetUserById | src/main/java/ru/practicum/shareit/user/repository/UserRepositoryImpl.java:51-56 | fails exactly for an absent id, else returns the stored user |
| UserRepositoryImpl.RemoveUser | src/main/java/ru/practicum/shareit/user/repository/UserRepositoryImpl.java:59-61 | exactly that id disappears, the other entries stay, an absent id changes nothing, and distinctness is kept |
| UserRepositoryImpl.GetAllUsers | src/main/java/ru/practicum/shareit/user/repository/UserRepositoryImpl.java:63-66 | exactly the stored users, each found under its own id |
| ItemRepositoryImpl.Empty | src/main/java/ru/practicum/shareit/item/repository/ItemRepositoryImpl.java:17-18 | a fresh repository is empty and well formed |
| ItemRepositoryImpl.AddItem | src/main/java/ru/practicum/shareit/item/repository/ItemRepositoryImpl.java:21-28 | fails exactly when validation fails; id 0 draws the counter; the item is stored under its id and other entries stay |
| ItemRepositoryImpl.CounterIdsIncrease | src/main/java/ru/practicum/shareit/item/repository/ItemRepositoryImpl.java:92-94 | two items added in turn with id 0 get increasing ids |
| ItemRepositoryImpl.GetItemById | src/main/java/ru/practicum/shareit/item/repository/ItemRepositoryImpl.java:31-36 | fails exactly for an absent id, else returns the stored item |
| ItemRepositoryImpl.Merge | src/main/java/ru/practicum/shareit/item/repository/ItemRepositoryImpl.java:48-58 | the update object is what gets stored: its null name, description and availability are filled from the stored item, and its id, owner and request are kept as the caller gave them |
| ItemRepositoryImpl.UpdateItem | src/main/java/ru/practicum/shareit/item/repository/ItemRepositoryImpl.java:39-60 | an unknown id fails, then a different owner fails, then an invalid merged item fails; success replaces only that entry with the merge |
| ItemRepositoryImpl.GetUserItems | src/main/java/ru/practicum/shareit/item/repository/ItemRepositoryImpl.java:63-67 | exactly the stored items of that owner |
| ItemRepositoryImpl.FindItemsByText | src/main/java/ru/practicum/shareit/item/repository/ItemRepositoryImpl.java:70-78 | a null or blank text finds nothing; otherwise exactly the items whose name matches, or whose description matches while available |
| ItemRepositoryImpl.UnavailableNameMatchIsFound | src/main/java/ru/practicum/shareit/item/repository/ItemRepositoryImpl.java:75-76 | an unavailable item whose name is the search text is found |
| ItemRepositoryImpl.FindAvailableItemsByText | src/main/java/ru/practicum/shareit/item/repository/ItemRepositoryImpl.java:70-78 | with the evident grouping: only available items, and exactly the available ones the original finds |
| Store.EmptyDb | src/main/java/ru/practicum/shareit/user/repository/UserRepositoryImpl.java:17 | a fresh database is valid with empty tables |
| Store.ItemsOfOwner | src/main/java/ru/practicum/shareit/item/service/ItemService.java:127 | exactly the owner's stored items, each as often as stored, by ascending id |
| Store.ItemsOfRequest | src/main/java/ru/practicum/shareit/request/service/ItemRequestService.java:65 | exactly the stored items answering that request, each as often as stored and no other |
| Store.ItemsOfRequests | server/src/main/java/ru/practicum/shareit/request/service/ItemRequestService.java:80 | exactly the stored items answering any of the listed requests, each as often as stored and no other |
| Store.BatchThenRequest | server/src/main/java/ru/practicum/shareit/request/service/ItemRequestService.java:76-86 | picking one request's items out of a batch that includes it gives that request's own items, in the same order |
| Store.CommentsOfItem | src/main/java/ru/practicum/shareit/item/service/ItemService.java:183-191 | exactly the stored comments on that item, each as often as stored and no other |
| Paging.PageOf | src/main/java/ru/practicum/shareit/booking/service/BookingService.java:158 | the page has the given size, and `from` falls inside it |
| Paging.PagingOf | src/main/java/ru/practicum/shareit/booking/service/BookingService.java:127-134 | fails exactly when both values are given and `from < 0` or `size <= 0`; no paging exactly when one is missing |
| Paging.Slice | src/main/java/ru/practicum/shareit/booking/service/BookingService.java:158-162 | a page holds the rows at positions from the offset on, in order: `size` of them when the result reaches past the page, the rest of the result on a partial last page, none past the end |
| Paging.WindowSubset | src/main/java/ru/practicum/shareit/booking/service/BookingService.java:156-185 | every row of a page is a row of the whole result |
| Paging.FirstPageOfOne | src/test/java/ru/practicum/shareit/booking/BookingServiceTest.java:498-506 | `from = 0, size = 1` is valid and yields exactly the first row |
| Paging.FromSnapsToPageBoundary | src/main/java/ru/practicum/shareit/booking/service/BookingService.java:158 | the page starts at `from` rounded down to a multiple of `size` |
| Paging.WindowKeepsOrder | server/src/main/java/ru/practicum/shareit/booking/repository/BookingRepository.java:22-33 | a page of a result ordered by descending key keeps that order |
| BookingRepository.Find | server/src/main/java/ru/practicum/shareit/booking/repository/BookingRepository.java:36-45 | exactly the selected rows of that party and condition, each as often as stored, latest start first |
| BookingRepository.FindPaged | server/src/main/java/ru/practicum/shareit/booking/repository/BookingRepository.java:22-33 | with a page, exactly that page's slice of the full ordered listing, so only selected rows, latest start first, at most `size`; without a page, the whole listing |
| BookingRepository.TimeConditionsPartition | server/src/main/java/ru/practicum/shareit/booking/repository/BookingRepository.java:22-29 | for a booking that does not end before it starts, exactly one of current, past and future holds at any instant |
| BookingRepository.CurrentPastFutureSplitAll | server/src/main/java/ru/practicum/shareit/booking/repository/BookingRepository.java:36-43 | over such bookings, the current, past and future listings together hold the full listing exactly, none counted twice |
| BookingRepository.StatusesSplitAll | server/src/main/java/ru/practicum/shareit/booking/repository/BookingRepository.java:31-45 | the waiting, rejected and approved listings together hold the full listing exactly |
| BookingRepository.LastBooking | server/src/main/java/ru/practicum/shareit/booking/repository/BookingRepository.java:101-106 | none exactly when no approved booking of the item started before `now`; otherwise such a booking with the latest start |
| BookingRepository.NextBooking | server/src/main/java/ru/practicum/shareit/booking/repository/BookingRepository.java:108-113 | none exactly when no approved booking of the item starts after `now`; otherwise such a booking with the earliest start |
| BookingRepository.LastIsNotNext | server/src/main/java/ru/practicum/shareit/booking/repository/BookingRepository.java:101-113 | when both exist, the last booking starts strictly before the next one |
| BookingRepository.FinishedBookings | server/src/main/java/ru/practicum/shareit/booking/repository/BookingRepository.java:115-118 | exactly the bookings of that item by that booker that ended before `now` |
| BookingRepository.FinishedIgnoresStatus | server/src/main/java/ru/practicum/shareit/booking/repository/BookingRepository.java:115-118 | an ended booking counts as finished whatever its status, even when it is not approved |
| BookingService.View | src/main/java/ru/practicum/shareit/booking/service/BookingService.java:117 | the view of a stored booking shows its interval, status, its item's fields and its booker's id |
| BookingService.AddBooking | src/main/java/ru/practicum/shareit/booking/service/BookingService.java:46-73 | the errors come in source order: unknown user, unknown item, own item, start after end, start equal to end, unavailable item; success appends exactly one waiting booking and keeps the database valid and every booking well formed |
| BookingService.Decided | src/main/java/ru/practicum/shareit/booking/service/BookingService.java:93-97 | a decision never leaves a booking waiting; approval sets approved |
| BookingService.ChangeApproveStatus | src/main/java/ru/practicum/shareit/booking/service/BookingService.java:76-101 | the errors come in source order: unknown caller, unknown booking, already approved, not the owner; success changes only that booking's status and keeps validity and well-formedness |
| BookingService.ApproveTwiceFails | src/main/java/ru/practicum/shareit/booking/service/BookingService.java:85-87 | after an approval, approving or rejecting again fails as already approved, and the booking stays approved |
| BookingService.RejectedCanBeApproved | src/main/java/ru/practicum/shareit/booking/service/BookingService.java:85-98 | a rejected booking can later be approved by its owner |
| BookingService.GetBookingById | src/main/java/ru/practicum/shareit/booking/service/BookingService.java:104-118 | unknown booking, then unknown user, then a caller who is neither booker nor owner fail; the others get the booking's view |
| BookingService.ConditionOf | src/main/java/ru/practicum/shareit/booking/service/BookingService.java:156-185 | each state selects its condition: current includes both ends, past is end before `now`, future is start after `now`; no state filters on the approved status |
| BookingService.ToListBookingDto | src/main/java/ru/practicum/shareit/booking/service/BookingService.java:269-277 | one view per booking, in the same order |
| BookingService.ListBookings | src/main/java/ru/practicum/shareit/booking/service/BookingService.java:121-154 | unknown caller, then bad paging fail; otherwise views ordered by start descending, each of a selected booking, all of them when unpaged, at most `size` when paged |
| BookingService.ViewsKeepOrder | src/main/java/ru/practicum/shareit/booking/service/BookingService.java:269-277 | views of a listing ordered by start keep that order |
| BookingService.ViewsAreOfSelected | src/main/java/ru/practicum/shareit/booking/service/BookingService.java:156-185 | every listed view is the view of a stored booking that the state selects |
| BookingService.SelectedAreViewed | src/main/java/ru/practicum/shareit/booking/service/BookingService.java:187-212 | every stored booking that the state selects is in the unpaged listing |
| BookingService.GetBookingByBooker | src/main/java/ru/practicum/shareit/booking/service/BookingService.java:121-136 | every view lists the caller as its booker |
| BookingService.GetBookingByOwner | src/main/java/ru/practicum/shareit/booking/service/BookingService.java:139-154 | every view is of a booking whose item the caller owns |
| BookingService.PageIsWindowOfListing | src/main/java/ru/practicum/shareit/booking/service/BookingService.java:127-134 | a valid page is exactly that page's slice of the unpaged listing |
| BookingService.AddThenRead | src/main/java/ru/practicum/shareit/booking/service/BookingService.java:46-118 | the booker reading back a booking just created gets the view the creation returned |
| ItemService.ForItem | src/main/java/ru/practicum/shareit/item/service/ItemService.java:165-181 | a last/next booking is shown exactly when one exists, as its id and booker id |
| ItemService.CommentViews | src/main/java/ru/practicum/shareit/item/service/ItemService.java:183-191 | one view per comment on the item, and exactly the views of those comments |
| ItemService.FullView | src/main/java/ru/practicum/shareit/item/service/ItemService.java:82-85 | the full view agrees with the item's view and carries the given bookings and comments |
| ItemService.OwnerView | src/main/java/ru/practicum/shareit/item/service/ItemService.java:80-83 | the owner's view shows the last and next approved bookings at `now` and the item's comments |
| ItemService.AddItem | src/main/java/ru/practicum/shareit/item/service/ItemService.java:55-67 | validation fails before an unknown user does; success appends exactly one item under the next id, owned by the caller and answering the given request, and keeps the database valid |
| ItemService.GetItemById | src/main/java/ru/practicum/shareit/item/service/ItemService.java:70-88 | unknown user, then unknown item fail; the owner sees last and next bookings, others see none; everyone sees the comments |
| ItemService.UpdateItem | src/main/java/ru/practicum/shareit/item/service/ItemService.java:91-118 | unknown user, then unknown item, then a non-owner, then an invalid merge fail; success stores exactly the merge under the same id, changes no other row and keeps validity |
| ItemService.EmptyUpdateChangesNothing | src/main/java/ru/practicum/shareit/item/service/ItemService.java:106-116 | an update that supplies no field leaves a valid stored item unchanged |
| ItemService.GetUserItems | src/main/java/ru/practicum/shareit/item/service/ItemService.java:121-131 | an unknown user fails; otherwise one owner view per owned item, by ascending id |
| ItemService.OwnedItemsInOrder | src/main/java/ru/practicum/shareit/item/service/ItemService.java:127 | the owner's items are stored items of that owner in ascending id order |
| ItemService.FindItemsByText | src/main/java/ru/practicum/shareit/item/service/ItemService.java:134-139 | equals the item-by-item reading: each found item in turn contributes its view when available, so order and repeats are kept; exactly the views of the available found items |
| ItemService.FilteredViewsAreAvailableViews | src/main/java/ru/practicum/shareit/item/service/ItemService.java:134-139 | filtering the available items and then mapping them to views equals the item-by-item reading of the search |
| ItemService.AllAvailableAllShown | src/main/java/ru/practicum/shareit/item/service/ItemService.java:134-139 | when every found item is available, every one is shown, in order |
| ItemService.AddComment | src/main/java/ru/practicum/shareit/item/service/ItemService.java:142-163 | empty text, then unknown item, then unknown user, then no finished rental fail; success requires a finished booking of that item by that user and appends exactly one comment created at `now` |
| ItemService.CommentShowsOnItem | src/main/java/ru/practicum/shareit/item/service/ItemService.java:142-191 | an accepted comment appears on the item's view for any existing viewer |
| UserService.AddUser | src/main/java/ru/practicum/shareit/user/service/UserService.java:28-34 | fails exactly for an invalid email; success appends one user under the next id and returns its view with that id |
| UserService.UpdateUser | src/main/java/ru/practicum/shareit/user/service/UserService.java:36-52 | an unknown id fails; success exactly when the merged email is valid; only that row changes, to the merge |
| UserService.GetUserById | src/main/java/ru/practicum/shareit/user/service/UserService.java:54-61 | fails exactly for an unknown id, else the stored user's view |
| UserService.RemoveUser | src/main/java/ru/practicum/shareit/user/service/UserService.java:63-66 | exactly that id is gone; in a valid database every other user reads back unchanged, and no other table changes |
| UserService.GetAllUsers | src/main/java/ru/practicum/shareit/user/service/UserService.java:68-73 | one view per stored user, in table order, under each user's own id |
| UserService.AddThenGet | src/main/java/ru/practicum/shareit/user/service/UserService.java:28-61 | a user just added reads back as the view the add returned |
| UserService.RemoveThenGetFails | src/main/java/ru/practicum/shareit/user/service/UserService.java:36-66 | after removal, reading or updating that id fails as not found |
| UserService.EmptyUpdateKeepsUser | src/main/java/ru/practicum/shareit/user/service/UserService.java:43-49 | an update with no fields succeeds exactly when the stored email is valid, and then keeps the row |
| ItemRequestRepository.ByRequestor | src/main/java/ru/practicum/shareit/request/repository/ItemRequestRepository.java:16 | exactly the requestor's requests, each as often as stored, newest first |
| ItemRequestRepository.Others | src/main/java/ru/practicum/shareit/request/repository/ItemRequestRepository.java:18-21 | exactly other users' requests, each as often as stored, newest first |
| ItemRequestRepository.OthersPaged | src/main/java/ru/practicum/shareit/request/repository/ItemRequestRepository.java:23-26 | with a page, exactly that page's slice of other users' requests, newest first, at most `size`; without a page, the whole listing |
| ItemRequestRepository.OwnAndOthersSplit | src/main/java/ru/practicum/shareit/request/repository/ItemRequestRepository.java:16-21 | own and other requests together are all stored requests, none counted twice |
| ItemRequestService.ItemViews | src/main/java/ru/practicum/shareit/request/service/ItemRequestService.java:65-67 | one view per item, in order |
| ItemRequestService.LongView | src/main/java/ru/practicum/shareit/request/service/ItemRequestService.java:65-68 | the request's own fields, plus one item view per answering item in the finder's order, so each answering item appears exactly once |
| ItemRequestService.AddItemRequest | src/main/java/ru/practicum/shareit/request/service/ItemRequestService.java:44-54 | fails exactly for an unknown requestor; success appends one request under the next id, created at `now`, and keeps validity |
| ItemRequestService.GetItemRequestById | src/main/java/ru/practicum/shareit/request/service/ItemRequestService.java:56-69 | unknown user, then unknown request fail; any existing user gets the request's long view |
| ItemRequestService.LongViews | src/main/java/ru/practicum/shareit/request/service/ItemRequestService.java:79-87 | one long view per request, in order |
| ItemRequestService.GetRequestorItemRequest | src/main/java/ru/practicum/shareit/request/service/ItemRequestService.java:71-88 | an unknown user fails; otherwise one long view per own request, newest first, each with its own items |
| ItemRequestService.GetAllOtherItemRequest | src/main/java/ru/practicum/shareit/request/service/ItemRequestService.java:90-111 | unknown user, then bad paging fail; otherwise one long view per request on the page's slice of other users' requests, newest first |
| ItemRequestService.OtherPageIsWindowOfListing | src/main/java/ru/practicum/shareit/request/service/ItemRequestService.java:90-111 | a valid page of the listing is exactly that page's slice of the unpaged listing |
| ItemRequestService.ListedInOrder | src/main/java/ru/practicum/shareit/request/repository/ItemRequestRepository.java:16-21 | views of requests listed newest first are newest first |
| ItemRequestService.AddedRequestIsListed | src/main/java/ru/practicum/shareit/request/service/ItemRequestService.java:44-88 | a request just added is in its requestor's own listing and not in that requestor's list of others' requests |
| BatchedItemRequestService.RequestIds | server/src/main/java/ru/practicum/shareit/request/service/ItemRequestService.java:77-79 | the ids of the listed requests, in order |
| BatchedItemRequestService.Batch | server/src/main/java/ru/practicum/shareit/request/service/ItemRequestService.java:80-82 | one view per item of the batched finder, in its order, so each item answering a listed request appears exactly once |
| BatchedItemRequestService.BatchViews | server/src/main/java/ru/practicum/shareit/request/service/ItemRequestService.java:84-86 | every request view carries the whole batch |
| BatchedItemRequestService.GetRequestorItemRequest | server/src/main/java/ru/practicum/shareit/request/service/ItemRequestService.java:71-87 | as written: one view per own request, newest first, with that request's id, description and creation instant, and with every item answering any own request |
| BatchedItemRequestService.GetAllOtherItemRequest | server/src/main/java/ru/practicum/shareit/request/service/ItemRequestService.java:89-114 | as written: one view per other user's request on the page, with that request's id, description and creation instant, and with every item answering any request on the page |
| BatchedItemRequestService.AnswerShownUnderEveryRequest | server/src/main/java/ru/practicum/shareit/request/service/ItemRequestService.java:84-86 | an item answering one own request shows under every own request |
| BatchedItemRequestService.UnansweredRequestShowsItem | server/src/main/java/ru/practicum/shareit/request/service/ItemRequestService.java:71-87 | a request nothing answers still shows another request's item as written, and shows nothing per request |
| BatchedItemRequestService.UnansweredViewIsEmpty | src/main/java/ru/practicum/shareit/request/service/ItemRequestService.java:65-68 | a request no stored item answers has an empty item list |
| BatchedItemRequestService.SecondRequestShowsFirstRequestsItem | server/src/main/java/ru/practicum/shareit/request/service/ItemRequestService.java:84-86 | concrete case: two requests of one user and an item answering the first; as written the second shows that item |
| BatchedItemRequestService.GroupedViews | server/src/main/java/ru/practicum/shareit/request/service/ItemRequestService.java:76-86 | grouping the batch by request id gives exactly the per-request views |
| BatchedItemRequestService.GetRequestorItemRequestGrouped | server/src/main/java/ru/practicum/shareit/request/service/ItemRequestService.java:71-87 | with grouping, the batched listing equals the per-request service's |
| BatchedItemRequestService.GetAllOtherItemRequestGrouped | server/src/main/java/ru/practicum/shareit/request/service/ItemRequestService.java:89-114 | with grouping, the batched paged listing equals the per-request service's |

## Checks the code does and does not make

The model keeps these behaviours of the code:

- `UserService.validate` rejects only a null or blank email. It checks neither the format nor uniqueness. The in-memory `UserRepositoryImpl` checks uniqueness when adding, but when updating only if the name is left null (see Findings).
- `ItemService.addComment` rejects only empty text, so whitespace-only text is accepted.
- `BookingService.changeApproveStatus` reads the booker without checking that it exists.
- The server copy of `ItemRequestService` fetches the items of all listed requests in one query, then attaches that whole batch to every request (see Findings).
- `ItemRequestService.addItemRequest` stores the description without checking it.
- The comment gate ignores booking status, so a rejected booking that has ended qualifies (`BookingRepository.FinishedIgnoresStatus`).
- A rejected booking can later be approved (`BookingService.RejectedCanBeApproved`).
- Bookings of one item may overlap, because only the item's `available` flag is checked.

## Left out

- The JPA text search `findItemsByNameOrDescriptionContainingIgnoreCase`, a derived query. `ItemService.FindItemsByText` takes its result as the input `found`, so the model constrains what the service does with the found items but not which items the query finds. The in-memory search of `ItemRepositoryImpl` is modelled.
- Controllers, the gateway module, the exception handler, and bean-validation annotations. The model starts at the service methods.
- `LocalDateTime.now()` is the parameter `now`. `toLowerCase` is the parameter `lower`, since Unicode case mapping is not modelled.
- JPA `save` of an entity with a non-zero id, foreign-key and unique constraints, and `getReferenceById` without an existence check. A new entity is always inserted under the next identity value, and a request id passed to `addItem` is stored without a lookup.
- A booking and a comment hold copies of their item and user as they were when created. Later updates to the item or user do not reach them.
- A null `available` makes the source throw `NullPointerException` in `addBooking`, `findItemsByText` and the search filter. The model treats it as "not available". A null name in the in-memory search is treated as no match.
- The `ItemDto` under `src/` has no `requestId`. `ItemService.addItem` reads one, so the request id is an explicit argument of `ItemService.AddItem`.
- The `ItemDto` under `server/` carries a `requestId`, and the server copy's `ItemMapper` that fills it is not part of this model. The batched views are built with the `src/` item view, so their `requestId` is not modelled.
- `ItemMapper.toItem(User, ItemDto)` and `toItemFullDto`, which the services call, are not in `ItemMapper.java`. They are modelled as building an item owned by the caller and `ItemService.FullView`.
- `UserService` calls `findById`, `save` and `deleteById`, which the in-memory `UserRepository` interface lacks. It is modelled over the users table.
- An unknown booking state, the `ServerError` branch of the controllers, is unrepresentable: `State` has exactly the six values.
- 64-bit wrap-around of ids and `int` paging values. Integers are unbounded and no wrap-around is reached.
- Concurrency and `@Transactional` isolation. Each call is atomic.
- Order among rows with equal sort keys. The source leaves it to the database, and the model keeps table order.
- BatchedItemRequestService.GetRequestorItemRequest: states that each view carries the whole batch, not the per-request grouping, because that is what the code does (see Findings).
- UserService.RemoveUser: an absent id is modelled as a no-op. `deleteById` belongs to the JPA repository, which is not part of this model. Under Spring Data JPA 2.x it throws `EmptyResultDataAccessException` for an absent id, and the exception handler does not map that to a response. The model does not promise that error.

## Findings

| source | as written | input that shows it | evidently intended | confidence | as-written member | corrected member |
|---|---|---|---|---|---|---|
| src/main/java/ru/practicum/shareit/user/repository/UserRepositoryImpl.java:39-44 | the email uniqueness check runs only when the update leaves the name null | users 1 `a@x.io` and 2 `b@x.io`; update user 2 with name `Bo` and email `a@x.io` | check uniqueness whenever the email changes, as on insertion | high, not executed | UserRepositoryImpl.UpdateWithNameDuplicatesEmail | UserRepositoryImpl.UpdateUserChecked |
| server/src/main/java/ru/practicum/shareit/request/service/ItemRequestService.java:84-86 | every request view gets the whole batch of items fetched for all listed requests | user 1 with requests 1 and 2 and one item answering request 1; the view of request 2 lists that item | group the batch by request id so each view lists only its own items | high, not executed | BatchedItemRequestService.SecondRequestShowsFirstRequestsItem | BatchedItemRequestService.GetRequestorItemRequestGrouped |
| src/main/java/ru/practicum/shareit/item/repository/ItemRepositoryImpl.java:75-76 | `name matches \|\| description matches && available` groups as name OR (description AND available) | an unavailable item named `drill`, searched for `drill`, is returned | (name OR description) AND available | high, not executed | ItemRepositoryImpl.UnavailableNameMatchIsFound | ItemRepositoryImpl.FindAvailableItemsByText |

=== FILE: batched_item_request_service.dfy ===
/**
  The item-request listings in their batched form: the items of all listed
  requests are fetched in one query. As written, the whole batch is then
  attached to every request view; the grouped form hands each request only
  its own items and agrees with the per-request service.
 */
module BatchedItemRequestService {
  import opened Common
  import opened Entities
  import opened Tables
  import opened Seqs
  import opened Paging
  import opened Store
  import opened ItemMapper
  import opened ItemRequestMapper
  import opened ItemRequestRepository
  import PerRequest = ItemRequestService

  /** The ids of the listed requests, in the same order. */
  function RequestIds(rs: seq<ItemRequest>): (r: seq<Id>)
    ensures |r| == |rs|
    ensures forall i :: 0 <= i < |rs| ==> r[i] == rs[i].id
    ensures forall q :: q in rs ==> q.id in r
  {
    var r := MapSeq(rs, (q: ItemRequest) => q.id);
    forall q | q in rs ensures q.id in r {
      var i :| 0 <= i < |rs| && rs[i] == q;
      assert r[i] == q.id;
    }
    r
  }

  /** The batch: the views of every item answering any listed request. */
  function Batch(items: Table<Item>, rs: seq<ItemRequest>): (r: seq<ItemDto>)
    ensures forall v :: v in r <==>
              exists it :: it in items.Rows() && it.request.Some? && it.request.value in RequestIds(rs)
                           && v == ToItemView(it)
    ensures |r| == |ItemsOfRequests(items, RequestIds(rs))|
    ensures forall i :: 0 <= i < |r| ==> r[i] == ToItemView(ItemsOfRequests(items, RequestIds(rs))[i])
  {
    var found := ItemsOfRequests(items, RequestIds(rs));
    var r := PerRequest.ItemViews(found);
    forall v | v in r
      ensures exists it :: it in items.Rows() && it.request.Some? && it.request.value in RequestIds(rs)
                           && v == ToItemView(it)
    {
      var i :| 0 <= i < |r| && r[i] == v;
      assert found[i] in found;
    }
    forall it | it in items.Rows() && it.request.Some? && it.request.value in RequestIds(rs)
      ensures ToItemView(it) in r
    {
      var i :| 0 <= i < |found| && found[i] == it;
      assert r[i] == ToItemView(it);
    }
    r
  }

  /** The views as written: every request carries the whole batch. */
  function BatchViews(items: Table<Item>, rs: seq<ItemRequest>): (r: seq<OutLongItemRequestDto>)
    ensures |r| == |rs|
    ensures forall i :: 0 <= i < |r| ==>
              && OutItemRequestDto(r[i].id, r[i].description, r[i].created) == ToOutItemRequestDto(rs[i])
              && r[i].items == Batch(items, rs)
    ensures forall v :: v in r ==> v.items == Batch(items, rs)
  {
    var batch := Batch(items, rs);
    MapSeq(rs, (q: ItemRequest) => ToOutLongItemRequestDto(q, batch))
  }

  /** `getRequestorItemRequest` as written: the caller must exist; one view
      per own request, newest first, each listing every item that answers any
      of the caller's requests. */
  function GetRequestorItemRequest(db: Db, requestorId: Id): (r: Result<seq<OutLongItemRequestDto>>)
    ensures r.Err? <==> requestorId !in db.users.Keys()
    ensures r.Err? ==> r.error == NotFound(UserMissing)
    ensures r.Ok? ==>
              var own := ByRequestor(db.requests, requestorId);
              && |r.value| == |own|
              && (forall i :: 0 <= i < |r.value| ==>
                    && OutItemRequestDto(r.value[i].id, r.value[i].description, r.value[i].created)
                         == ToOutItemRequestDto(own[i])
                    && r.value[i].items == Batch(db.items, own))
  {
    if db.users.Get(requestorId).None? then Err(NotFound(UserMissing))
    else Ok(BatchViews(db.items, ByRequestor(db.requests, requestorId)))
  }

  /** `getAllOtherItemRequest` as written: the caller must exist and the
      paging pair be valid; one view per request of another user on the
      page, newest first, each listing every item that answers any request
      on the page. */
  function GetAllOtherItemRequest(db: Db, requestorId: Id, from: Option<int>, size: Option<int>)
    : (r: Result<seq<OutLongItemRequestDto>>)
    ensures requestorId !in db.users.Keys() ==> r == Err(NotFound(UserMissing))
    ensures requestorId in db.users.Keys() && PagingOf(from, size).Err? ==> r == Err(Validation(BadPaging))
    ensures r.Ok? <==> requestorId in db.users.Keys() && PagingOf(from, size).Ok?
    ensures r.Ok? ==>
              var others := OthersPaged(db.requests, requestorId, PagingOf(from, size).value);
              && |r.value| == |others|
              && (forall i :: 0 <= i < |r.value| ==>
                    && OutItemRequestDto(r.value[i].id, r.value[i].description, r.value[i].created)
                         == ToOutItemRequestDto(others[i])
                    && r.value[i].items == Batch(db.items, others))
  {
    if db.users.Get(requestorId).None? then Err(NotFound(UserMissing))
    else
      match PagingOf(from, size)
      case Err(e) => Err(e)
      case Ok(page) => Ok(BatchViews(db.items, OthersPaged(db.requests, requestorId, page)))
  }

  /** An item answering one of the caller's requests is shown under every one
      of the caller's requests, whichever it answers. */
  lemma AnswerShownUnderEveryRequest(db: Db, requestorId: Id, it: Item, q: ItemRequest)
    requires GetRequestorItemRequest(db, requestorId).Ok?
    requires it in db.items.Rows() && q in ByRequestor(db.requests, requestorId) && it.request == Some(q.id)
    ensures forall v :: v in GetRequestorItemRequest(db, requestorId).value ==> ToItemView(it) in v.items
  {
    var own := ByRequestor(db.requests, requestorId);
    assert GetRequestorItemRequest(db, requestorId).value == BatchViews(db.items, own);
    InBatch(db.items, own, it, q);
  }

  /** An item answering one of the listed requests is in the batch. */
  lemma InBatch(items: Table<Item>, rs: seq<ItemRequest>, it: Item, q: ItemRequest)
    requires it in items.Rows() && q in rs && it.request == Some(q.id)
    ensures ToItemView(it) in Batch(items, rs)
  {
    assert q.id in RequestIds(rs);
  }

  /** When one of the caller's requests has no answering item but another
      has, the view of the first, as written, still lists an item, while the
      per-request service lists none under it. */
  lemma UnansweredRequestShowsItem(db: Db, requestorId: Id, it: Item, q1: ItemRequest, q2: ItemRequest)
    requires requestorId in db.users.Keys()
    requires q1 in ByRequestor(db.requests, requestorId) && q2 in ByRequestor(db.requests, requestorId)
    requires it in db.items.Rows() && it.request == Some(q1.id)
    requires forall other :: other in db.items.Rows() ==> other.request != Some(q2.id)
    ensures exists k :: 0 <= k < |GetRequestorItemRequest(db, requestorId).value|
              && GetRequestorItemRequest(db, requestorId).value[k].id == q2.id
              && ToItemView(it) in GetRequestorItemRequest(db, requestorId).value[k].items
              && PerRequest.GetRequestorItemRequest(db, requestorId).value[k].id == q2.id
              && PerRequest.GetRequestorItemRequest(db, requestorId).value[k].items == []
  {
    var own := ByRequestor(db.requests, requestorId);
    var k :| 0 <= k < |own| && own[k] == q2;
    AnswerShownUnderEveryRequest(db, requestorId, it, q1);
    var written := GetRequestorItemRequest(db, requestorId).value;
    assert written[k] in written;
    var per := PerRequest.GetRequestorItemRequest(db, requestorId).value;
    assert per[k] == PerRequest.LongView(db.items, q2);
    UnansweredViewIsEmpty(db.items, q2);
  }

  /** A request no stored item answers is shown with no items. */
  lemma UnansweredViewIsEmpty(items: Table<Item>, q: ItemRequest)
    requires forall other :: other in items.Rows() ==> other.request != Some(q.id)
    ensures PerRequest.LongView(items, q).items == []
  {
    var answering := ItemsOfRequest(items, q.id);
    assert |answering| == 0;
  }

  /** User 1 with two requests, created at 10 and 20, and one item answering
      the first. */
  function SampleDb(): Db {
    var u := User(1, Some("Ann"), Some("a@x.io"));
    Db(Table([(1, u)], 2),
       Table([(1, SampleItem())], 2),
       EmptyTable(), EmptyTable(),
       Table([(1, ItemRequest(1, "drill", u, 10)), (2, ItemRequest(2, "ladder", u, 20))], 3))
  }

  function SampleItem(): Item {
    Item(1, Some("Drill"), Some("cordless"), Some(true), 2, Some(1))
  }

  lemma SampleDbFacts()
    ensures 1 in SampleDb().users.Keys()
    ensures SampleDb().items.Rows() == [SampleItem()]
    ensures SampleDb().requests.Rows()[0] in ByRequestor(SampleDb().requests, 1)
    ensures SampleDb().requests.Rows()[1] in ByRequestor(SampleDb().requests, 1)
    ensures SampleDb().requests.Rows()[0].id == 1 && SampleDb().requests.Rows()[1].id == 2
  {
    var db := SampleDb();
    assert db.users.entries[0].0 == 1;
    assert db.items.Rows() == [SampleItem()];
  }

  /** On the sample, the view of request 2, as written, lists the item that
      answers request 1; the per-request service lists nothing under it. */
  lemma SecondRequestShowsFirstRequestsItem()
    ensures exists k :: 0 <= k < |GetRequestorItemRequest(SampleDb(), 1).value|
              && GetRequestorItemRequest(SampleDb(), 1).value[k].id == 2
              && ToItemView(SampleItem()) in GetRequestorItemRequest(SampleDb(), 1).value[k].items
              && PerRequest.GetRequestorItemRequest(SampleDb(), 1).value[k].id == 2
              && PerRequest.GetRequestorItemRequest(SampleDb(), 1).value[k].items == []
  {
    SampleDbFacts();
    var db := SampleDb();
    UnansweredRequestShowsItem(db, 1, SampleItem(), db.requests.Rows()[0], db.requests.Rows()[1]);
  }

  /** The batch views regrouped: each request gets the batch items that
      answer it. This is the same as fetching each request's items on its
      own. */
  function GroupedViews(items: Table<Item>, rs: seq<ItemRequest>): (r: seq<OutLongItemRequestDto>)
    ensures r == PerRequest.LongViews(items, rs)
  {
    var ids := RequestIds(rs);
    var found := ItemsOfRequests(items, ids);
    var r := MapSeq(rs, (q: ItemRequest) =>
      ToOutLongItemRequestDto(q, PerRequest.ItemViews(Filter(found, Answers(q.id)))));
    forall i | 0 <= i < |rs| ensures r[i] == PerRequest.LongView(items, rs[i]) {
      assert rs[i].id in ids;
      BatchThenRequest(items, ids, rs[i].id);
    }
    r
  }

  /** `getRequestorItemRequest` with the batch grouped by request: one
      query, and the same result as the per-request service. */
  function GetRequestorItemRequestGrouped(db: Db, requestorId: Id): (r: Result<seq<OutLongItemRequestDto>>)
    ensures r == PerRequest.GetRequestorItemRequest(db, requestorId)
  {
    if db.users.Get(requestorId).None? then Err(NotFound(UserMissing))
    else Ok(GroupedViews(db.items, ByRequestor(db.requests, requestorId)))
  }

  /** `getAllOtherItemRequest` with the batch grouped by request: the same
      result as the per-request service. */
  function GetAllOtherItemRequestGrouped(db: Db, requestorId: Id, from: Option<int>, size: Option<int>)
    : (r: Result<seq<OutLongItemRequestDto>>)
    ensures r == PerRequest.GetAllOtherItemRequest(db, requestorId, from, size)
  {
    if db.users.Get(requestorId).None? then Err(NotFound(UserMissing))
    else
      match PagingOf(from, size)
      case Err(e) => Err(e)
      case Ok(page) => Ok(GroupedViews(db.items, OthersPaged(db.requests, requestorId, page)))
  }
}

=== FILE: booking_mapper.dfy ===
/** Conversions between a booking and its views. */
module BookingMapper {
  import opened Common
  import opened Entities

  /** A new booking from a request: start and end from the request; item,
      booker and status from the arguments; the id left unset (0). Its view
      shows the requested interval and the given status. */
  function ToBooking(dto: IncomingBookingDto, item: Item, booker: User, status: Status): (b: Booking)
    ensures b.id == 0 && b.item == item && b.booker == booker
    ensures forall iv: ItemDto, uv: ShortUserDto {:trigger ToBookingDto(b, iv, uv)} ::
              var v := ToBookingDto(b, iv, uv);
              v.start == dto.start && v.end == dto.end && v.status == status
              && v.item == iv && v.booker == uv
  {
    Booking(0, dto.start, dto.end, item, booker, status)
  }

  /** The booking view: id, start, end and status copied; the given item and
      booker views embedded unchanged. */
  function ToBookingDto(b: Booking, itemView: ItemDto, bookerView: ShortUserDto): (d: BookingDto)
    ensures d.id == b.id && d.start == b.start && d.end == b.end && d.status == b.status
    ensures d.item == itemView && d.booker == bookerView
  {
    BookingDto(b.id, b.start, b.end, itemView, bookerView, b.status)
  }

  /** The last/next booking shown on an item: the booking's id and its
      booker's id, nothing else. */
  function ToBookingForItemDto(b: Booking): (d: BookingForItemDto)
    ensures d.id == b.id && d.bookerId == b.booker.id
  {
    BookingForItemDto(b.id, b.booker.id)
  }

  /** Interval, item and status stay hidden: bookings that share id and
      booker id give the same last/next view. */
  lemma ItemBookingViewHidesRest(b: Booking, other: Booking)
    requires other.id == b.id && other.booker.id == b.booker.id
    ensures ToBookingForItemDto(other) == ToBookingForItemDto(b)
  {
  }
}

=== FILE: booking_repository.dfy ===
/**
  The booking finders. Each listing selects the bookings of one party (the
  booker, or the owner of the booked item) that satisfy one condition, and
  orders them by start, latest first; a `Pageable` cuts a window out of that
  order. Three single-item selectors feed the item views and the comment
  gate.
 */
module BookingRepository {
  import opened Common
  import opened Entities
  import opened Tables
  import opened Seqs
  import opened Paging

  /** Whose bookings a listing asks for: `booker.id` or `item.owner.id`. */
  datatype Role = Booker | Owner

  /** The WHERE condition of a listing besides the party. */
  datatype Condition =
    | AnyTime
    | CurrentAt(now: Timestamp)
    | EndBefore(now: Timestamp)
    | StartAfter(now: Timestamp)
    | StatusIs(status: Status)

  /** The id a listing of that role filters on. */
  function PartyOf(b: Booking, role: Role): Id {
    match role
    case Booker => b.booker.id
    case Owner => b.item.owner
  }

  /** `?2 BETWEEN b.start AND b.end` (both ends included), `b.end < ?2`,
      `b.start > ?2`, `b.status = ?2`. */
  predicate Holds(c: Condition, b: Booking) {
    match c
    case AnyTime => true
    case CurrentAt(now) => b.start <= now <= b.end
    case EndBefore(now) => b.end < now
    case StartAfter(now) => b.start > now
    case StatusIs(status) => b.status == status
  }

  /** The row a listing of `role` for `id` under `c` returns. */
  predicate Selects(id: Id, role: Role, c: Condition, b: Booking) {
    PartyOf(b, role) == id && Holds(c, b)
  }

  /** `Selects` as a filter predicate. */
  function Selector(id: Id, role: Role, c: Condition): Booking -> bool {
    b => Selects(id, role, c, b)
  }

  /** The ordering key of `ORDER BY b.start`. */
  function StartKey(b: Booking): int {
    b.start
  }

  /** An unpaged listing: exactly the selected rows, each as often as stored,
      latest start first. */
  function Find(t: Table<Booking>, id: Id, role: Role, c: Condition): (r: seq<Booking>)
    ensures SortedDesc(r, StartKey)
    ensures forall b :: b in r <==> b in t.Rows() && Selects(id, role, c, b)
    ensures forall b :: multiset(r)[b] == if Selects(id, role, c, b) then multiset(t.Rows())[b] else 0
    ensures |r| <= |t.Rows()|
  {
    var selected := Filter(t.Rows(), Selector(id, role, c));
    var r := SortDesc(selected, StartKey);
    SameElements(r, selected);
    r
  }

  /** A listing with an optional `Pageable`: the page's window of the
      ordered result. */
  function FindPaged(t: Table<Booking>, id: Id, role: Role, c: Condition, page: Option<Page>): (r: seq<Booking>)
    ensures SortedDesc(r, StartKey)
    ensures forall b :: b in r ==> b in t.Rows() && Selects(id, role, c, b)
    ensures page.None? ==> r == Find(t, id, role, c)
    ensures page.Some? ==> |r| <= page.value.size
    ensures page.Some? ==> r == Slice(Find(t, id, role, c), page.value)
  {
    var all := Find(t, id, role, c);
    var r := Window(all, page);
    WindowSubset(all, page);
    WindowKeepsOrder(all, page, StartKey);
    r
  }

  /** For a booking that does not end before it starts, exactly one of the
      current, past and future conditions holds at any instant. */
  lemma TimeConditionsPartition(b: Booking, now: Timestamp)
    requires b.start <= b.end
    ensures Holds(CurrentAt(now), b) || Holds(EndBefore(now), b) || Holds(StartAfter(now), b)
    ensures !(Holds(CurrentAt(now), b) && Holds(EndBefore(now), b))
    ensures !(Holds(CurrentAt(now), b) && Holds(StartAfter(now), b))
    ensures !(Holds(EndBefore(now), b) && Holds(StartAfter(now), b))
  {
  }

  /** Over a table of well-formed bookings, the current, past and future
      listings of a party split its full listing: together they hold every
      booking exactly as often as the full listing does. */
  lemma CurrentPastFutureSplitAll(t: Table<Booking>, id: Id, role: Role, now: Timestamp)
    requires forall b :: b in t.Rows() ==> b.start <= b.end
    ensures multiset(Find(t, id, role, CurrentAt(now)))
            + multiset(Find(t, id, role, EndBefore(now)))
            + multiset(Find(t, id, role, StartAfter(now)))
            == multiset(Find(t, id, role, AnyTime))
  {
    forall b | b in t.Rows() ensures b.start <= b.end {
    }
    forall b | b in t.Rows()
      ensures Selector(id, role, AnyTime)(b) <==>
                Selector(id, role, CurrentAt(now))(b) || Selector(id, role, EndBefore(now))(b) || Selector(id, role, StartAfter(now))(b)
      ensures !(Selector(id, role, CurrentAt(now))(b) && Selector(id, role, EndBefore(now))(b))
      ensures !(Selector(id, role, CurrentAt(now))(b) && Selector(id, role, StartAfter(now))(b))
      ensures !(Selector(id, role, EndBefore(now))(b) && Selector(id, role, StartAfter(now))(b))
    {
      TimeConditionsPartition(b, now);
    }
    FilterSplit3(t.Rows(), Selector(id, role, CurrentAt(now)), Selector(id, role, EndBefore(now)),
                 Selector(id, role, StartAfter(now)), Selector(id, role, AnyTime));
  }

  /** The waiting, rejected and approved bookings of a party make up its
      full listing; the service offers the first two as states. */
  lemma StatusesSplitAll(t: Table<Booking>, id: Id, role: Role)
    ensures multiset(Find(t, id, role, StatusIs(Waiting)))
            + multiset(Find(t, id, role, StatusIs(Rejected)))
            + multiset(Find(t, id, role, StatusIs(Approved)))
            == multiset(Find(t, id, role, AnyTime))
  {
    FilterSplit3(t.Rows(), Selector(id, role, StatusIs(Waiting)), Selector(id, role, StatusIs(Rejected)),
                 Selector(id, role, StatusIs(Approved)), Selector(id, role, AnyTime));
  }

  /** The condition of `findItemLastBooking`: an approved booking of the item
      that started before `now`. */
  predicate LastCandidate(itemId: Id, now: Timestamp, b: Booking) {
    b.item.id == itemId && b.start < now && b.status == Approved
  }

  /** The condition of `findItemNextBooking`: an approved booking of the item
      that starts after `now`. */
  predicate NextCandidate(itemId: Id, now: Timestamp, b: Booking) {
    b.item.id == itemId && now < b.start && b.status == Approved
  }

  /** `findItemLastBooking`: a candidate with the latest start, or none when
      there is no candidate. */
  function LastBooking(t: Table<Booking>, itemId: Id, now: Timestamp): (r: Option<Booking>)
    ensures r.None? <==> forall b :: b in t.Rows() ==> !LastCandidate(itemId, now, b)
    ensures r.Some? ==> r.value in t.Rows() && LastCandidate(itemId, now, r.value)
    ensures r.Some? ==> forall b :: b in t.Rows() && LastCandidate(itemId, now, b) ==> b.start <= r.value.start
  {
    var matching := Filter(t.Rows(), (b: Booking) => LastCandidate(itemId, now, b));
    var cands := SortDesc(matching, StartKey);
    SameElements(cands, matching);
    if |cands| == 0 then None
    else
      HeadOfDescIsMax(cands, StartKey);
      Some(cands[0])
  }

  /** `findItemNextBooking`: a candidate with the earliest start, or none when
      there is no candidate. */
  function NextBooking(t: Table<Booking>, itemId: Id, now: Timestamp): (r: Option<Booking>)
    ensures r.None? <==> forall b :: b in t.Rows() ==> !NextCandidate(itemId, now, b)
    ensures r.Some? ==> r.value in t.Rows() && NextCandidate(itemId, now, r.value)
    ensures r.Some? ==> forall b :: b in t.Rows() && NextCandidate(itemId, now, b) ==> r.value.start <= b.start
  {
    var matching := Filter(t.Rows(), (b: Booking) => NextCandidate(itemId, now, b));
    var cands := SortAsc(matching, StartKey);
    SameElements(cands, matching);
    if |cands| == 0 then None
    else
      HeadOfAscIsMin(cands, StartKey);
      Some(cands[0])
  }

  /** At one instant no booking is both the item's last and its next: the
      last started before `now`, the next starts after it. */
  lemma LastIsNotNext(t: Table<Booking>, itemId: Id, now: Timestamp)
    requires LastBooking(t, itemId, now).Some? && NextBooking(t, itemId, now).Some?
    ensures LastBooking(t, itemId, now).value.start < NextBooking(t, itemId, now).value.start
  {
  }

  /** `findFinishedBookingsByItem`: the bookings of that item by that booker
      that ended before `now`, whatever their status, in table order. */
  function FinishedBookings(t: Table<Booking>, itemId: Id, bookerId: Id, now: Timestamp): (r: seq<Booking>)
    ensures forall b :: b in r <==>
              b in t.Rows() && b.item.id == itemId && b.booker.id == bookerId && b.end < now
    ensures |r| <= |t.Rows()|
  {
    Filter(t.Rows(), (b: Booking) => b.item.id == itemId && b.booker.id == bookerId && b.end < now)
  }

  /** A waiting or rejected booking that has ended counts as finished: the
      finder has no status condition. */
  lemma FinishedIgnoresStatus(t: Table<Booking>, b: Booking, now: Timestamp)
    requires b in t.Rows() && b.end < now
    ensures b in FinishedBookings(t, b.item.id, b.booker.id, now)
    ensures b.status != Approved ==> b !in Find(t, b.booker.id, Booker, StatusIs(Approved))
  {
  }
}

=== FILE: booking_service.dfy ===
/**
  The booking service: creating a booking, the owner's approve/reject
  decision, reading one booking, and the booker's and owner's listings.
  Each operation reads the database, fails with the first check that does
  not pass, and otherwise returns the new database and a view.
 */
module BookingService {
  import opened Common
  import opened Entities
  import opened Tables
  import opened Seqs
  import opened Paging
  import opened Store
  import opened BookingRepository
  import opened BookingMapper
  import opened ItemMapper
  import opened UserMapper

  /** What every booking created by `AddBooking` satisfies: it ends after it
      starts, and the booker does not own the item. */
  predicate WellFormed(b: Booking) {
    b.start < b.end && b.booker.id != b.item.owner
  }

  ghost predicate BookingsWellFormed(t: Table<Booking>) {
    forall b :: b in t.Rows() ==> WellFormed(b)
  }

  /** The view the service returns for a stored booking: its own item and
      booker, as the mapper shows them. */
  function View(b: Booking): (d: BookingDto)
    ensures d.id == b.id && d.start == b.start && d.end == b.end && d.status == b.status
    ensures d.item == ItemDto(b.item.id, b.item.name, b.item.description, b.item.available)
    ensures d.booker.id == b.booker.id
  {
    ToBookingDto(b, ToItemView(b.item), ToShortUserDto(b.booker))
  }

  /** `addBooking`. The checks, first failure wins: the booker exists, the
      item exists, the booker is not the owner, start is not after end, start
      is not end, the item is available. On success one row is appended: a
      waiting booking of that item by that user over the requested interval. */
  function AddBooking(db: Db, bookerId: Id, dto: IncomingBookingDto): (r: Result<(Db, BookingDto)>)
    ensures bookerId !in db.users.Keys() ==> r == Err(NotFound(UserMissing))
    ensures bookerId in db.users.Keys() && dto.itemId !in db.items.Keys() ==> r == Err(NotFound(ItemMissing))
    ensures bookerId in db.users.Keys() && dto.itemId in db.items.Keys() ==>
              var item := db.items.Get(dto.itemId).value;
              && (item.owner == bookerId ==> r == Err(NotFound(OwnItem)))
              && (item.owner != bookerId && dto.start > dto.end ==> r == Err(Validation(EndBeforeStart)))
              && (item.owner != bookerId && dto.start == dto.end ==> r == Err(Validation(SameStartEnd)))
              && (item.owner != bookerId && dto.start < dto.end && item.available != Some(true) ==> r == Err(Unavailable))
              && (r.Ok? <==> item.owner != bookerId && dto.start < dto.end && item.available == Some(true))
    ensures r.Ok? ==>
              var (db', view) := r.value;
              var b := Booking(db.bookings.next, dto.start, dto.end,
                               db.items.Get(dto.itemId).value, db.users.Get(bookerId).value, Waiting);
              && db'.bookings.Rows() == db.bookings.Rows() + [b]
              && db' == db.(bookings := db'.bookings)
              && view == View(b)
              && b.start < b.end
              && b.item.available == Some(true)
              && (Valid(db) ==> WellFormed(b))
    ensures r.Ok? && Valid(db) ==> Valid(r.value.0)
    ensures r.Ok? && Valid(db) && BookingsWellFormed(db.bookings) ==> BookingsWellFormed(r.value.0.bookings)
  {
    var user := db.users.Get(bookerId);
    if user.None? then Err(NotFound(UserMissing))
    else
      var item := db.items.Get(dto.itemId);
      if item.None? then Err(NotFound(ItemMissing))
      else if item.value.owner == bookerId then Err(NotFound(OwnItem))
      else if dto.start > dto.end then Err(Validation(EndBeforeStart))
      else if dto.start == dto.end then Err(Validation(SameStartEnd))
      else if item.value.available != Some(true) then Err(Unavailable)
      else
        var stored := ToBooking(dto, item.value, user.value, Waiting).(id := db.bookings.next);
        var db' := db.(bookings := db.bookings.Insert(stored));
        Ok((db', ToBookingDto(stored, ToItemView(item.value), ToShortUserDto(user.value))))
  }

  /** The status an owner's decision sets. */
  function Decided(approved: bool): (s: Status)
    ensures s != Waiting
    ensures s == Approved <==> approved
  {
    if approved then Approved else Rejected
  }

  /** `changeApproveStatus`. The checks, first failure wins: the caller
      exists, the booking exists, it is not already approved, the caller owns
      its item. (The caller's id is the id the user was looked up by, as a
      primary-key lookup guarantees.) On success only that booking's status
      changes. */
  function ChangeApproveStatus(db: Db, ownerId: Id, bookingId: Id, approved: bool): (r: Result<(Db, BookingDto)>)
    ensures ownerId !in db.users.Keys() ==> r == Err(NotFound(UserMissing))
    ensures ownerId in db.users.Keys() && bookingId !in db.bookings.Keys() ==> r == Err(NotFound(BookingMissing))
    ensures ownerId in db.users.Keys() && bookingId in db.bookings.Keys() ==>
              var b := db.bookings.Get(bookingId).value;
              && (b.status == Approved ==> r == Err(Validation(AlreadyApproved)))
              && (b.status != Approved && b.item.owner != ownerId ==> r == Err(NotFound(NotItemOwner)))
              && (r.Ok? <==> b.status != Approved && b.item.owner == ownerId)
    ensures r.Ok? ==>
              var (db', view) := r.value;
              var updated := db.bookings.Get(bookingId).value.(status := Decided(approved));
              && db'.bookings.Get(bookingId) == Some(updated)
              && db' == db.(bookings := db'.bookings)
              && view == View(updated)
    ensures r.Ok? && Valid(db) ==>
              && Valid(r.value.0)
              && r.value.0.bookings.Keys() == db.bookings.Keys()
              && forall k :: k != bookingId ==> r.value.0.bookings.Get(k) == db.bookings.Get(k)
    ensures r.Ok? && BookingsWellFormed(db.bookings) ==> BookingsWellFormed(r.value.0.bookings)
  {
    var user := db.users.Get(ownerId);
    if user.None? then Err(NotFound(UserMissing))
    else
      var booking := db.bookings.Get(bookingId);
      if booking.None? then Err(NotFound(BookingMissing))
      else if booking.value.status == Approved then Err(Validation(AlreadyApproved))
      else if booking.value.item.owner != ownerId then Err(NotFound(NotItemOwner))
      else
        var updated := booking.value.(status := Decided(approved));
        var db' := db.(bookings := db.bookings.Put(bookingId, updated));
        Ok((db', ToBookingDto(updated, ToItemView(updated.item), ToShortUserDto(updated.booker))))
  }

  /** Approving a booking a second time fails, and leaves it approved. */
  lemma {:induction false} ApproveTwiceFails(db: Db, ownerId: Id, bookingId: Id)
    requires ChangeApproveStatus(db, ownerId, bookingId, true).Ok?
    ensures var db' := ChangeApproveStatus(db, ownerId, bookingId, true).value.0;
            && db'.bookings.Get(bookingId).value.status == Approved
            && ChangeApproveStatus(db', ownerId, bookingId, true) == Err(Validation(AlreadyApproved))
            && ChangeApproveStatus(db', ownerId, bookingId, false) == Err(Validation(AlreadyApproved))
  {
    var db' := ChangeApproveStatus(db, ownerId, bookingId, true).value.0;
    assert ownerId in db.users.Keys();
    assert db'.users == db.users;
    assert bookingId in db'.bookings.Keys();
  }

  /** Nothing stops the owner from approving a rejected booking. */
  lemma {:induction false} RejectedCanBeApproved(db: Db, ownerId: Id, bookingId: Id)
    requires ChangeApproveStatus(db, ownerId, bookingId, false).Ok?
    ensures var db' := ChangeApproveStatus(db, ownerId, bookingId, false).value.0;
            && db'.bookings.Get(bookingId).value.status == Rejected
            && ChangeApproveStatus(db', ownerId, bookingId, true).Ok?
            && ChangeApproveStatus(db', ownerId, bookingId, true).value.0.bookings.Get(bookingId).value.status == Approved
  {
    var db' := ChangeApproveStatus(db, ownerId, bookingId, false).value.0;
    var b := db.bookings.Get(bookingId).value;
    assert ownerId in db.users.Keys();
    assert db'.users == db.users;
    assert bookingId in db'.bookings.Keys();
    assert db'.bookings.Get(bookingId).value == b.(status := Rejected);
  }

  /** `getBookingById`. The checks, first failure wins: the booking exists,
      the caller exists, the caller is its booker or the owner of its item. */
  function GetBookingById(db: Db, userId: Id, bookingId: Id): (r: Result<BookingDto>)
    ensures bookingId !in db.bookings.Keys() ==> r == Err(NotFound(BookingMissing))
    ensures bookingId in db.bookings.Keys() && userId !in db.users.Keys() ==> r == Err(NotFound(UserMissing))
    ensures r.Ok? <==>
              && bookingId in db.bookings.Keys() && userId in db.users.Keys()
              && (userId == db.bookings.Get(bookingId).value.booker.id
                  || userId == db.bookings.Get(bookingId).value.item.owner)
    ensures r.Err? && bookingId in db.bookings.Keys() && userId in db.users.Keys() ==>
              r == Err(NotFound(NotParticipant))
    ensures r.Ok? ==> r.value == View(db.bookings.Get(bookingId).value)
  {
    var booking := db.bookings.Get(bookingId);
    if booking.None? then Err(NotFound(BookingMissing))
    else if db.users.Get(userId).None? then Err(NotFound(UserMissing))
    else
      var b := booking.value;
      if userId != b.booker.id && userId != b.item.owner then Err(NotFound(NotParticipant))
      else Ok(ToBookingDto(b, ToItemView(b.item), ToShortUserDto(b.booker)))
  }

  /** The switch of the four listing helpers: each requested state picks one
      finder condition, with `now` read once per call. There is no state
      that asks for approved bookings. */
  function ConditionOf(state: State, now: Timestamp): (c: Condition)
    ensures forall b: Booking :: Holds(c, b) <==>
              match state
              case All => true
              case Current => b.start <= now && now <= b.end
              case Past => b.end < now
              case Future => now < b.start
              case WaitingState => b.status == Waiting
              case RejectedState => b.status == Rejected
    ensures c.StatusIs? ==> c.status != Approved
  {
    match state
    case All => AnyTime
    case Current => CurrentAt(now)
    case Past => EndBefore(now)
    case Future => StartAfter(now)
    case WaitingState => StatusIs(Waiting)
    case RejectedState => StatusIs(Rejected)
  }

  /** `toListBookingDto`: one view per booking, in the same order. */
  function ToListBookingDto(bookings: seq<Booking>): (r: seq<BookingDto>)
    ensures |r| == |bookings|
    ensures forall i :: 0 <= i < |r| ==> r[i] == View(bookings[i])
  {
    MapSeq(bookings, View)
  }

  /** The listing shared by `getBookingByBooker` (role `Booker`) and
      `getBookingByOwner` (role `Owner`). The checks, first failure wins: the
      caller exists, the paging pair is valid when both are given. On success
      the views of the party's bookings under the state's condition, latest
      start first, cut to the page when paging applies. */
  function ListBookings(db: Db, id: Id, role: Role, state: State, from: Option<int>, size: Option<int>, now: Timestamp)
    : (r: Result<seq<BookingDto>>)
    ensures id !in db.users.Keys() ==> r == Err(NotFound(UserMissing))
    ensures id in db.users.Keys() && PagingOf(from, size).Err? ==> r == Err(Validation(BadPaging))
    ensures r.Ok? <==> id in db.users.Keys() && PagingOf(from, size).Ok?
    ensures r.Ok? ==> forall i, j :: 0 <= i < j < |r.value| ==> r.value[i].start >= r.value[j].start
    ensures r.Ok? ==> forall d :: d in r.value ==>
              exists b :: b in db.bookings.Rows() && Selects(id, role, ConditionOf(state, now), b) && d == View(b)
    ensures r.Ok? && (from.None? || size.None?) ==>
              forall b :: b in db.bookings.Rows() && Selects(id, role, ConditionOf(state, now), b) ==> View(b) in r.value
    ensures r.Ok? && from.Some? && size.Some? ==> |r.value| <= size.value
  {
    if db.users.Get(id).None? then Err(NotFound(UserMissing))
    else
      match PagingOf(from, size)
      case Err(e) => Err(e)
      case Ok(page) =>
        var found := FindPaged(db.bookings, id, role, ConditionOf(state, now), page);
        ViewsKeepOrder(found);
        ViewsAreOfSelected(db.bookings, id, role, ConditionOf(state, now), page);
        SelectedAreViewed(db.bookings, id, role, ConditionOf(state, now));
        Ok(ToListBookingDto(found))
  }

  /** Views of a listing ordered by start keep that order. */
  lemma ViewsKeepOrder(found: seq<Booking>)
    requires SortedDesc(found, StartKey)
    ensures var views := ToListBookingDto(found);
            forall i, j :: 0 <= i < j < |views| ==> views[i].start >= views[j].start
  {
    var views := ToListBookingDto(found);
    forall i, j | 0 <= i < j < |views| ensures views[i].start >= views[j].start {
      assert StartKey(found[i]) >= StartKey(found[j]);
    }
  }

  /** Every view of a (paged) listing is the view of a selected booking. */
  lemma ViewsAreOfSelected(t: Table<Booking>, id: Id, role: Role, c: Condition, page: Option<Page>)
    ensures forall d :: d in ToListBookingDto(FindPaged(t, id, role, c, page)) ==>
              exists b :: b in t.Rows() && Selects(id, role, c, b) && d == View(b)
  {
    var found := FindPaged(t, id, role, c, page);
    var views := ToListBookingDto(found);
    forall d | d in views
      ensures exists b :: b in t.Rows() && Selects(id, role, c, b) && d == View(b)
    {
      var i :| 0 <= i < |views| && views[i] == d;
      assert found[i] in found;
    }
  }

  /** Every selected booking is viewed in the unpaged listing. */
  lemma SelectedAreViewed(t: Table<Booking>, id: Id, role: Role, c: Condition)
    ensures forall b :: b in t.Rows() && Selects(id, role, c, b) ==> View(b) in ToListBookingDto(FindPaged(t, id, role, c, None))
  {
    var found := FindPaged(t, id, role, c, None);
    var views := ToListBookingDto(found);
    forall b | b in t.Rows() && Selects(id, role, c, b) ensures View(b) in views {
      var i :| 0 <= i < |found| && found[i] == b;
      assert views[i] == View(b);
    }
  }

  /** `getBookingByBooker`: every view in the listing shows the caller as
      its booker. */
  function GetBookingByBooker(db: Db, bookerId: Id, state: State, from: Option<int>, size: Option<int>, now: Timestamp)
    : (r: Result<seq<BookingDto>>)
    ensures r == ListBookings(db, bookerId, Booker, state, from, size, now)
    ensures r.Ok? ==> forall d :: d in r.value ==> d.booker.id == bookerId
  {
    var r := ListBookings(db, bookerId, Booker, state, from, size, now);
    assert r.Ok? ==> forall d :: d in r.value ==> d.booker.id == bookerId by {
      if r.Ok? {
        forall d | d in r.value ensures d.booker.id == bookerId {
          var b :| b in db.bookings.Rows() && Selects(bookerId, Booker, ConditionOf(state, now), b) && d == View(b);
        }
      }
    }
    r
  }

  /** `getBookingByOwner`: every view in the listing is of a booking whose
      item the caller owns. */
  function GetBookingByOwner(db: Db, ownerId: Id, state: State, from: Option<int>, size: Option<int>, now: Timestamp)
    : (r: Result<seq<BookingDto>>)
    ensures r == ListBookings(db, ownerId, Owner, state, from, size, now)
    ensures r.Ok? ==> forall d :: d in r.value ==>
              exists b :: b in db.bookings.Rows() && b.item.owner == ownerId && d == View(b)
  {
    ListBookings(db, ownerId, Owner, state, from, size, now)
  }

  /** A page of a listing is the page's window of the unpaged listing. */
  lemma {:induction false} PageIsWindowOfListing(db: Db, id: Id, role: Role, state: State, from: int, size: int, now: Timestamp)
    requires id in db.users.Keys() && 0 <= from && 0 < size
    ensures ListBookings(db, id, role, state, Some(from), Some(size), now).Ok?
    ensures ListBookings(db, id, role, state, Some(from), Some(size), now).value
            == Slice(ListBookings(db, id, role, state, None, None, now).value, PageOf(from, size))
  {
    var all := Find(db.bookings, id, role, ConditionOf(state, now));
    ListingUnfolds(db, id, role, state, Some(from), Some(size), now);
    ListingUnfolds(db, id, role, state, None, None, now);
    ViewsOfSlice(all, PageOf(from, size));
  }

  /** A successful listing is the views of the page's window of the party's
      bookings under the state's condition. */
  lemma ListingUnfolds(db: Db, id: Id, role: Role, state: State, from: Option<int>, size: Option<int>, now: Timestamp)
    requires id in db.users.Keys() && PagingOf(from, size).Ok?
    ensures ListBookings(db, id, role, state, from, size, now)
            == Ok(ToListBookingDto(Window(Find(db.bookings, id, role, ConditionOf(state, now)), PagingOf(from, size).value)))
  {
  }

  /** Viewing a page of bookings is the same page of their views. */
  lemma {:induction false} ViewsOfSlice(bs: seq<Booking>, page: Page)
    ensures ToListBookingDto(Slice(bs, page)) == Slice(ToListBookingDto(bs), page)
  {
    var left := ToListBookingDto(Slice(bs, page));
    var right := Slice(ToListBookingDto(bs), page);
    assert |left| == |right|;
    forall i | 0 <= i < |left| ensures left[i] == right[i] {
      assert right[i] == ToListBookingDto(bs)[Offset(page) + i];
    }
  }

  /** Creating a booking and reading it back as its booker returns the view
      the creation returned. */
  lemma {:induction false} AddThenRead(db: Db, bookerId: Id, dto: IncomingBookingDto)
    requires Valid(db)
    requires AddBooking(db, bookerId, dto).Ok?
    ensures var (db', view) := AddBooking(db, bookerId, dto).value;
            GetBookingById(db', bookerId, view.id) == Ok(view)
  {
    var (db', view) := AddBooking(db, bookerId, dto).value;
    var b := Booking(db.bookings.next, dto.start, dto.end,
                     db.items.Get(dto.itemId).value, db.users.Get(bookerId).value, Waiting);
    assert db'.bookings.Get(db.bookings.next) == Some(b);
    assert db.users.Get(bookerId).value.id == bookerId || b.booker.id != bookerId;
  }
}

=== FILE: comment_mapper.dfy ===
/** Conversions between a comment and its views. */
module CommentMapper {
  import opened Common
  import opened Entities

  /** A comment from a request: id and text from the request, item and author
      from the arguments, created at the given instant. Its outgoing view
      shows the request's text, the author's name and that instant. */
  function ToComment(dto: IncomingCommentDto, item: Item, author: User, created: Timestamp): (c: Comment)
    ensures c.item == item && c.author == author
    ensures ToOutCommentDto(c) == OutCommentDto(dto.id, dto.text, author.name, created)
  {
    Comment(dto.id, dto.text, item, author, created)
  }

  /** The outgoing view: id, text and creation instant copied, and the
      author's name in place of the author. */
  function ToOutCommentDto(c: Comment): (d: OutCommentDto)
    ensures d.id == c.id && d.text == c.text && d.created == c.created
    ensures d.authorName == c.author.name
  {
    OutCommentDto(c.id, c.text, c.author.name, c.created)
  }

  /** The view exposes neither the item nor the author's id or email:
      comments that differ only there look the same. */
  lemma ViewHidesItemAndAuthor(c: Comment, item: Item, author: User)
    requires author.name == c.author.name
    ensures ToOutCommentDto(c.(item := item, author := author)) == ToOutCommentDto(c)
  {
  }
}

=== FILE: common.dfy ===
/**
  Shared vocabulary of the model: identifiers, timestamps, nullable values,
  the error kinds the services raise, and the Java string predicates the
  validations rely on (`isEmpty`, `isBlank`, `contains`).
 */
module Common {

  /** Java `long` identifiers. Unbounded here; wrap-around is never reached. */
  type Id = int

  /** A `LocalDateTime` instant, as an ordered integer. */
  type Timestamp = int

  /** A nullable Java reference: `None` stands for `null`. */
  datatype Option<+T> = None | Some(value: T)

  /** Which not-found message a service raises. */
  datatype Missing =
    | UserMissing       // no user with that id
    | ItemMissing       // no item with that id
    | BookingMissing    // no booking with that id
    | RequestMissing    // no item request with that id
    | OwnItem           // the booker owns the item
    | NotItemOwner      // the caller does not own the item
    | NotParticipant    // the caller is neither booker nor owner

  /** Which validation message a service raises. */
  datatype Invalid =
    | EndBeforeStart
    | SameStartEnd
    | AlreadyApproved
    | BadPaging
    | BadName
    | BadDescription
    | BadAvailable
    | BadEmail
    | EmptyComment
    | NoFinishedRental

  /** The exception kinds of the services: NotFoundException, ValidationException,
      AvailableException and IsExistException. */
  datatype Error =
    | NotFound(missing: Missing)
    | Validation(invalid: Invalid)
    | Unavailable
    | Conflict

  /** The outcome of a service call. A failed call carries no new state, so a
      failure never changes any store. */
  datatype Result<+T> = Ok(value: T) | Err(error: Error) {
    predicate IsFailure() {
      Err?
    }

    function PropagateFailure<U>(): Result<U>
      requires Err?
    {
      Err(error)
    }

    function Extract(): T
      requires Ok?
    {
      value
    }
  }

  /** A field of a partial update: the supplied value, or the stored one when
      the update leaves it `null`. */
  function Override<T>(given: Option<T>, stored: Option<T>): (r: Option<T>)
    ensures r.Some? <==> given.Some? || stored.Some?
    ensures r == given || (given.None? && r == stored)
  {
    if given.Some? then given else stored
  }

  /** The characters `Character.isWhitespace` accepts. */
  const JavaWhitespace: set<char> :=
    {' ', '\t', '\n', '\U{B}', '\U{C}', '\r',
     '\U{1C}', '\U{1D}', '\U{1E}', '\U{1F}',
     '\U{1680}', '\U{2000}', '\U{2001}', '\U{2002}', '\U{2003}', '\U{2004}',
     '\U{2005}', '\U{2006}', '\U{2008}', '\U{2009}', '\U{200A}',
     '\U{2028}', '\U{2029}', '\U{205F}', '\U{3000}'}

  /** `String.isBlank`: empty or whitespace only. */
  predicate IsBlank(s: string) {
    forall i :: 0 <= i < |s| ==> s[i] in JavaWhitespace
  }

  /** A nullable string that is `null` or blank. */
  predicate IsNullOrBlank(s: Option<string>) {
    s.None? || IsBlank(s.value)
  }

  /** `needle` occurs in `hay` starting at position `i`. */
  predicate OccursAt(hay: string, needle: string, i: int) {
    0 <= i <= |hay| - |needle| && hay[i..i + |needle|] == needle
  }

  /** `String.contains`: `needle` occurs as a contiguous piece of `hay`. */
  predicate Contains(hay: string, needle: string) {
    exists i | 0 <= i <= |hay| - |needle| :: OccursAt(hay, needle, i)
  }
}

=== FILE: entities.dfy ===
/**
  The records of the item-sharing service: the stored entities (users,
  items, bookings, comments, item requests) and the views the services
  accept and return. Java's nullable fields are `Option`s.
 */
module Entities {
  import opened Common

  datatype User = User(id: Id, name: Option<string>, email: Option<string>)

  /** An item. `owner` is the owning user's id; `request` is the item request
      it answers, if any. */
  datatype Item = Item(
    id: Id,
    name: Option<string>,
    description: Option<string>,
    available: Option<bool>,
    owner: Id,
    request: Option<Id>)

  /** The lifecycle value stored on a booking. */
  datatype Status = Waiting | Approved | Rejected

  /** The filter a booking listing is asked for. There is no `Approved` state. */
  datatype State = All | Current | Past | Future | WaitingState | RejectedState

  /** A booking holds its item and its booker, as the entity graph does. */
  datatype Booking = Booking(
    id: Id,
    start: Timestamp,
    end: Timestamp,
    item: Item,
    booker: User,
    status: Status)

  datatype Comment = Comment(id: Id, text: string, item: Item, author: User, created: Timestamp)

  datatype ItemRequest = ItemRequest(id: Id, description: string, requestor: User, created: Timestamp)

  // Views accepted and returned by the services.

  datatype UserDto = UserDto(id: Id, name: Option<string>, email: Option<string>)

  /** The booker as shown inside a booking view. */
  datatype ShortUserDto = ShortUserDto(id: Id)

  datatype ItemDto = ItemDto(
    id: Id,
    name: Option<string>,
    description: Option<string>,
    available: Option<bool>)

  datatype IncomingBookingDto = IncomingBookingDto(itemId: Id, start: Timestamp, end: Timestamp)

  datatype BookingDto = BookingDto(
    id: Id,
    start: Timestamp,
    end: Timestamp,
    item: ItemDto,
    booker: ShortUserDto,
    status: Status)

  /** The last/next booking shown on an item. */
  datatype BookingForItemDto = BookingForItemDto(id: Id, bookerId: Id)

  datatype IncomingCommentDto = IncomingCommentDto(id: Id, text: string)

  datatype OutCommentDto = OutCommentDto(id: Id, text: string, authorName: Option<string>, created: Timestamp)

  /** An item with its last and next booking and its comments. */
  datatype ItemFullDto = ItemFullDto(
    id: Id,
    name: Option<string>,
    description: Option<string>,
    available: Option<bool>,
    lastBooking: Option<BookingForItemDto>,
    nextBooking: Option<BookingForItemDto>,
    comments: seq<OutCommentDto>)

  datatype IncomingItemRequestDto = IncomingItemRequestDto(id: Id, description: string)

  datatype OutItemRequestDto = OutItemRequestDto(id: Id, description: string, created: Timestamp)

  datatype OutLongItemRequestDto = OutLongItemRequestDto(
    id: Id,
    description: string,
    created: Timestamp,
    items: seq<ItemDto>)
}

=== FILE: item_mapper.dfy ===
/** Conversions between an item and its view, in the variant whose item
    carries the owner's numeric id. */
module ItemMapper {
  import opened Common
  import opened Entities

  /** The item built from a view: the id is the explicit argument (the view's
      own id is ignored), the owner is `userId`, and name, description and
      availability are copied. Viewing it under the same id gives back the
      view with its id replaced. */
  function ToItem(id: Id, userId: Id, dto: ItemDto): (item: Item)
    ensures item.id == id && item.owner == userId && item.request == None
    ensures ToItemDto(id, item) == dto.(id := id)
  {
    Item(id, dto.name, dto.description, dto.available, userId, None)
  }

  /** The view of an item under the given id. */
  function ToItemDto(id: Id, item: Item): (d: ItemDto)
    ensures d.id == id
    ensures d.name == item.name && d.description == item.description && d.available == item.available
  {
    ItemDto(id, item.name, item.description, item.available)
  }

  /** The view does not expose the owner or the originating request: items
      that differ only there look the same. */
  lemma ViewHidesOwner(id: Id, item: Item, owner: Id, request: Option<Id>)
    ensures ToItemDto(id, item.(owner := owner, request := request)) == ToItemDto(id, item)
  {
  }

  /** The view of a stored item under its own id. */
  function ToItemView(item: Item): (d: ItemDto)
    ensures d == ToItemDto(item.id, item)
  {
    ToItemDto(item.id, item)
  }
}

=== FILE: item_repository_impl.dfy ===
/**
  The in-memory item repository: a map from id to item and an id counter
  that starts at 1. Items here carry their owner's numeric id.
 */
module ItemRepositoryImpl {
  import opened Common
  import opened Entities
  import opened Validation

  datatype ItemStore = ItemStore(items: map<Id, Item>, next: Id)

  /** The repository as constructed: no items, counter at 1. */
  function Empty(): (s: ItemStore)
    ensures Valid(s) && s.items == map[]
  {
    ItemStore(map[], 1)
  }

  /** Every item is stored under its own id, and the counter is positive. */
  ghost predicate Valid(s: ItemStore) {
    && 1 <= s.next
    && forall k :: k in s.items ==> s.items[k].id == k
  }

  /** `addItem`: validates the fields, gives an item with id 0 the next
      counter value (an item with another id keeps it), and stores it under
      its id. Every other entry stays as it was. */
  function AddItem(s: ItemStore, item: Item): (r: Result<(ItemStore, Item)>)
    ensures r.Err? <==> ValidateItem(item).Some?
    ensures r.Err? ==> r.error == Validation(ValidateItem(item).value)
    ensures r.Ok? ==>
              var (s', stored) := r.value;
              && stored.id == (if item.id == 0 then s.next else item.id)
              && stored == item.(id := stored.id)
              && s'.next == (if item.id == 0 then s.next + 1 else s.next)
              && stored.id in s'.items && s'.items[stored.id] == stored
              && s'.items.Keys == s.items.Keys + {stored.id}
              && (forall k :: k in s.items && k != stored.id ==> s'.items[k] == s.items[k])
    ensures r.Ok? && Valid(s) ==> Valid(r.value.0)
  {
    match ValidateItem(item)
    case Some(e) => Err(Validation(e))
    case None =>
      var stored := if item.id == 0 then item.(id := s.next) else item;
      var next := if item.id == 0 then s.next + 1 else s.next;
      Ok((ItemStore(s.items[stored.id := stored], next), stored))
  }

  /** Two items added one after the other with id 0 get increasing ids. */
  lemma CounterIdsIncrease(s: ItemStore, a: Item, b: Item)
    requires a.id == 0 && b.id == 0
    requires AddItem(s, a).Ok?
    requires AddItem(AddItem(s, a).value.0, b).Ok?
    ensures AddItem(s, a).value.1.id < AddItem(AddItem(s, a).value.0, b).value.1.id
  {
  }

  /** `getItemById`: the stored item, failing exactly when the id is absent. */
  function GetItemById(s: ItemStore, id: Id): (r: Result<Item>)
    ensures r.Err? <==> id !in s.items
    ensures r.Err? ==> r.error == NotFound(ItemMissing)
    ensures r.Ok? ==> r.value == s.items[id]
  {
    if id !in s.items then Err(NotFound(ItemMissing)) else Ok(s.items[id])
  }

  /** The item an update leaves behind. The update object itself is stored:
      its `null` fields are filled from the stored item, and every other
      field, the request included, is the caller's. */
  function Merge(stored: Item, update: Item): (m: Item)
    ensures m.id == update.id && m.owner == update.owner && m.request == update.request
    ensures m.name == Override(update.name, stored.name)
    ensures m.description == Override(update.description, stored.description)
    ensures m.available == Override(update.available, stored.available)
  {
    update.(name := Override(update.name, stored.name),
            description := Override(update.description, stored.description),
            available := Override(update.available, stored.available))
  }

  /** `updateItem`: the item must exist and belong to the same owner; `null`
      fields take the stored values; the merged item is validated and
      replaces the entry under the same id. Nothing else changes. */
  function UpdateItem(s: ItemStore, item: Item): (r: Result<(ItemStore, Item)>)
    ensures item.id !in s.items ==> r == Err(NotFound(ItemMissing))
    ensures item.id in s.items && s.items[item.id].owner != item.owner ==> r == Err(NotFound(NotItemOwner))
    ensures item.id in s.items && s.items[item.id].owner == item.owner ==>
              var merged := Merge(s.items[item.id], item);
              && (r.Err? <==> ValidateItem(merged).Some?)
              && (r.Err? ==> r.error == Validation(ValidateItem(merged).value))
    ensures r.Ok? ==>
              var (s', updated) := r.value;
              && item.id in s.items
              && updated == Merge(s.items[item.id], item)
              && s'.items == s.items[item.id := updated]
              && s'.items.Keys == s.items.Keys
              && s'.next == s.next
    ensures r.Ok? && Valid(s) ==> Valid(r.value.0) && r.value.1.id == item.id
  {
    if item.id !in s.items then Err(NotFound(ItemMissing))
    else
      var stored := s.items[item.id];
      if stored.owner != item.owner then Err(NotFound(NotItemOwner))
      else
        var merged := Merge(stored, item);
        match ValidateItem(merged)
        case Some(e) => Err(Validation(e))
        case None => Ok((s.(items := s.items[item.id := merged]), merged))
  }

  /** `getUserItems`: exactly the stored items of that owner. */
  function GetUserItems(s: ItemStore, owner: Id): (r: set<Item>)
    ensures forall it :: it in r <==> it in s.items.Values && it.owner == owner
  {
    set it | it in s.items.Values && it.owner == owner
  }

  /** The search predicate as written: `name contains text || description
      contains text && available`, where `&&` binds tighter, so a matching
      name alone is enough. Text is compared after `lower`. */
  predicate MatchesAsWritten(item: Item, text: string, lower: string -> string) {
    || (item.name.Some? && Contains(lower(item.name.value), lower(text)))
    || ((item.description.Some? && Contains(lower(item.description.value), lower(text)))
        && item.available == Some(true))
  }

  /** `findItemsByText` as written: nothing for a `null` or blank text,
      otherwise the stored items matching `MatchesAsWritten`. */
  function FindItemsByText(s: ItemStore, text: Option<string>, lower: string -> string): (r: set<Item>)
    ensures IsNullOrBlank(text) ==> r == {}
    ensures !IsNullOrBlank(text) ==>
              forall it :: it in r <==> it in s.items.Values && MatchesAsWritten(it, text.value, lower)
  {
    if IsNullOrBlank(text) then {}
    else set it | it in s.items.Values && MatchesAsWritten(it, text.value, lower)
  }

  /** An unavailable item whose name is the search text is returned by the
      search, whatever the lower-casing. */
  lemma UnavailableNameMatchIsFound(lower: string -> string)
    ensures var drill := Item(1, Some("drill"), Some("tool"), Some(false), 7, None);
            var s := ItemStore(map[1 := drill], 2);
            drill in FindItemsByText(s, Some("drill"), lower)
  {
    var drill := Item(1, Some("drill"), Some("tool"), Some(false), 7, None);
    assert "drill"[0] !in JavaWhitespace;
    assert OccursAt(lower("drill"), lower("drill"), 0);
    assert MatchesAsWritten(drill, "drill", lower);
    assert drill in map[1 := drill].Values by {
      assert map[1 := drill][1] == drill;
    }
  }

  /** The search predicate with the evident grouping: name or description
      matches, and the item is available. */
  predicate MatchesAvailable(item: Item, text: string, lower: string -> string) {
    && (|| (item.name.Some? && Contains(lower(item.name.value), lower(text)))
        || (item.description.Some? && Contains(lower(item.description.value), lower(text))))
    && item.available == Some(true)
  }

  /** `findItemsByText` with the evident grouping: only available items, and
      exactly the available items the as-written search returns. */
  function FindAvailableItemsByText(s: ItemStore, text: Option<string>, lower: string -> string): (r: set<Item>)
    ensures forall it :: it in r ==> it.available == Some(true)
    ensures IsNullOrBlank(text) ==> r == {}
    ensures forall it :: it in r <==> it in FindItemsByText(s, text, lower) && it.available == Some(true)
  {
    if IsNullOrBlank(text) then {}
    else set it | it in s.items.Values && MatchesAvailable(it, text.value, lower)
  }
}

=== FILE: item_request_mapper.dfy ===
/** Conversions between an item request and its views. */
module ItemRequestMapper {
  import opened Common
  import opened Entities

  /** A request from its incoming view: id and description from the view,
      the given requestor, created at the given instant. Its short view is the
      incoming id and description with that instant. */
  function ToItemRequest(requestor: User, dto: IncomingItemRequestDto, created: Timestamp): (r: ItemRequest)
    ensures r.requestor == requestor
    ensures ToOutItemRequestDto(r) == OutItemRequestDto(dto.id, dto.description, created)
  {
    ItemRequest(dto.id, dto.description, requestor, created)
  }

  /** The short view: id, description and creation instant; the requestor is
      dropped. */
  function ToOutItemRequestDto(r: ItemRequest): (d: OutItemRequestDto)
    ensures d == OutItemRequestDto(r.id, r.description, r.created)
  {
    OutItemRequestDto(r.id, r.description, r.created)
  }

  /** The short view does not depend on the requestor. */
  lemma ShortViewHidesRequestor(r: ItemRequest, requestor: User)
    ensures ToOutItemRequestDto(r.(requestor := requestor)) == ToOutItemRequestDto(r)
  {
  }

  /** The long view: the short view's fields plus the given item views,
      unchanged, in the same order. */
  function ToOutLongItemRequestDto(r: ItemRequest, items: seq<ItemDto>): (d: OutLongItemRequestDto)
    ensures d.items == items
    ensures OutItemRequestDto(d.id, d.description, d.created) == ToOutItemRequestDto(r)
  {
    OutLongItemRequestDto(r.id, r.description, r.created, items)
  }
}

=== FILE: item_request_repository.dfy ===
/**
  The item-request finders: a requestor's own requests, and everybody
  else's, both newest first; the second optionally paged.
 */
module ItemRequestRepository {
  import opened Common
  import opened Entities
  import opened Tables
  import opened Seqs
  import opened Paging

  /** The ordering key of `ORDER BY created`. */
  function CreatedKey(r: ItemRequest): int {
    r.created
  }

  /** Requests made by `requestorId`. */
  function MadeBy(requestorId: Id): ItemRequest -> bool {
    (r: ItemRequest) => r.requestor.id == requestorId
  }

  /** Requests made by anyone else (`ir.requestor.id <> ?1`). */
  function MadeByOthers(requestorId: Id): ItemRequest -> bool {
    (r: ItemRequest) => r.requestor.id != requestorId
  }

  /** `findItemRequestByRequestorIdOrderByCreatedDesc`: exactly the
      requestor's requests, each as often as stored, newest first. */
  function ByRequestor(t: Table<ItemRequest>, requestorId: Id): (r: seq<ItemRequest>)
    ensures SortedDesc(r, CreatedKey)
    ensures forall q :: q in r <==> q in t.Rows() && q.requestor.id == requestorId
    ensures forall q :: multiset(r)[q] == if q.requestor.id == requestorId then multiset(t.Rows())[q] else 0
  {
    var own := Filter(t.Rows(), MadeBy(requestorId));
    var r := SortDesc(own, CreatedKey);
    SameElements(r, own);
    r
  }

  /** `findAllOtherItemRequest` without a page: exactly the requests of other
      users, each as often as stored, newest first. */
  function Others(t: Table<ItemRequest>, requestorId: Id): (r: seq<ItemRequest>)
    ensures SortedDesc(r, CreatedKey)
    ensures forall q :: q in r <==> q in t.Rows() && q.requestor.id != requestorId
    ensures forall q :: multiset(r)[q] == if q.requestor.id != requestorId then multiset(t.Rows())[q] else 0
  {
    var others := Filter(t.Rows(), MadeByOthers(requestorId));
    var r := SortDesc(others, CreatedKey);
    SameElements(r, others);
    r
  }

  /** `findAllOtherItemRequest` with an optional `Pageable`: that page's
      window of the ordered result, still newest first. */
  function OthersPaged(t: Table<ItemRequest>, requestorId: Id, page: Option<Page>): (r: seq<ItemRequest>)
    ensures SortedDesc(r, CreatedKey)
    ensures forall q :: q in r ==> q in t.Rows() && q.requestor.id != requestorId
    ensures page.None? ==> r == Others(t, requestorId)
    ensures page.Some? ==> |r| <= page.value.size
    ensures page.Some? ==> r == Slice(Others(t, requestorId), page.value)
  {
    var all := Others(t, requestorId);
    WindowSubset(all, page);
    WindowKeepsOrder(all, page, CreatedKey);
    Window(all, page)
  }

  /** A user's own requests and everybody else's together are all stored
      requests, none counted twice. */
  lemma OwnAndOthersSplit(t: Table<ItemRequest>, requestorId: Id)
    ensures multiset(ByRequestor(t, requestorId)) + multiset(Others(t, requestorId)) == multiset(t.Rows())
  {
    var own := ByRequestor(t, requestorId);
    var others := Others(t, requestorId);
    forall q ensures (multiset(own) + multiset(others))[q] == multiset(t.Rows())[q] {
      if q.requestor.id == requestorId {
        assert multiset(others)[q] == 0;
      } else {
        assert multiset(own)[q] == 0;
      }
    }
  }
}

=== FILE: item_request_service.dfy ===
/**
  The item-request service in its per-request form: each request view lists
  the items that answer that request.
 */
module ItemRequestService {
  import opened Common
  import opened Entities
  import opened Tables
  import opened Seqs
  import opened Paging
  import opened Store
  import opened ItemMapper
  import opened ItemRequestMapper
  import opened ItemRequestRepository

  /** The item views of a list of items, in the same order. */
  function ItemViews(items: seq<Item>): (r: seq<ItemDto>)
    ensures |r| == |items|
    ensures forall i :: 0 <= i < |r| ==> r[i].id == items[i].id && r[i] == ToItemView(items[i])
  {
    MapSeq(items, ToItemView)
  }

  /** The long view of one request: its own fields and the views of the
      items that answer it, in table order. */
  function LongView(items: Table<Item>, r: ItemRequest): (d: OutLongItemRequestDto)
    ensures OutItemRequestDto(d.id, d.description, d.created) == ToOutItemRequestDto(r)
    ensures forall v :: v in d.items <==>
              exists it :: it in items.Rows() && it.request == Some(r.id) && v == ToItemView(it)
    ensures |d.items| == |ItemsOfRequest(items, r.id)|
    ensures forall i :: 0 <= i < |d.items| ==> d.items[i] == ToItemView(ItemsOfRequest(items, r.id)[i])
  {
    var answering := ItemsOfRequest(items, r.id);
    var views := ItemViews(answering);
    forall v | v in views
      ensures exists it :: it in items.Rows() && it.request == Some(r.id) && v == ToItemView(it)
    {
      var i :| 0 <= i < |views| && views[i] == v;
      assert answering[i] in answering;
    }
    forall it | it in items.Rows() && it.request == Some(r.id) ensures ToItemView(it) in views {
      var i :| 0 <= i < |answering| && answering[i] == it;
      assert views[i] == ToItemView(it);
    }
    ToOutLongItemRequestDto(r, views)
  }

  /** `addItemRequest`: the requestor must exist; the request is saved as a
      new row under the next identity value with the requestor and the
      creation instant `now`, and its short view is returned. */
  function AddItemRequest(db: Db, dto: IncomingItemRequestDto, requestorId: Id, now: Timestamp)
    : (r: Result<(Db, OutItemRequestDto)>)
    ensures r.Err? <==> requestorId !in db.users.Keys()
    ensures r.Err? ==> r.error == NotFound(UserMissing)
    ensures r.Ok? ==>
              var (db', view) := r.value;
              var user := db.users.Get(requestorId).value;
              && db'.requests.Rows() == db.requests.Rows() + [ItemRequest(db.requests.next, dto.description, user, now)]
              && db' == db.(requests := db'.requests)
              && view == OutItemRequestDto(db.requests.next, dto.description, now)
    ensures r.Ok? && Valid(db) ==> Valid(r.value.0) && r.value.0.requests.Keys() == db.requests.Keys() + {db.requests.next}
  {
    var user := db.users.Get(requestorId);
    if user.None? then Err(NotFound(UserMissing))
    else
      var stored := ToItemRequest(user.value, dto, now).(id := db.requests.next);
      Ok((db.(requests := db.requests.Insert(stored)), ToOutItemRequestDto(stored)))
  }

  /** `getItemRequestById`: the caller must exist, then the request; any
      existing user may read any request. */
  function GetItemRequestById(db: Db, requestorId: Id, requestId: Id): (r: Result<OutLongItemRequestDto>)
    ensures requestorId !in db.users.Keys() ==> r == Err(NotFound(UserMissing))
    ensures requestorId in db.users.Keys() && requestId !in db.requests.Keys() ==> r == Err(NotFound(RequestMissing))
    ensures r.Ok? <==> requestorId in db.users.Keys() && requestId in db.requests.Keys()
    ensures r.Ok? ==> r.value == LongView(db.items, db.requests.Get(requestId).value)
  {
    if db.users.Get(requestorId).None? then Err(NotFound(UserMissing))
    else
      var request := db.requests.Get(requestId);
      if request.None? then Err(NotFound(RequestMissing))
      else Ok(LongView(db.items, request.value))
  }

  /** The long views of a list of requests, in the same order. */
  function LongViews(items: Table<Item>, rs: seq<ItemRequest>): (r: seq<OutLongItemRequestDto>)
    ensures |r| == |rs|
    ensures forall i :: 0 <= i < |r| ==> r[i] == LongView(items, rs[i])
  {
    MapSeq(rs, (q: ItemRequest) => LongView(items, q))
  }

  /** `getRequestorItemRequest`: the caller must exist; then one long view
      per request the caller made, newest first. */
  function GetRequestorItemRequest(db: Db, requestorId: Id): (r: Result<seq<OutLongItemRequestDto>>)
    ensures r.Err? <==> requestorId !in db.users.Keys()
    ensures r.Err? ==> r.error == NotFound(UserMissing)
    ensures r.Ok? ==>
              var own := ByRequestor(db.requests, requestorId);
              && |r.value| == |own|
              && (forall i, j :: 0 <= i < j < |r.value| ==> r.value[i].created >= r.value[j].created)
              && (forall i :: 0 <= i < |r.value| ==>
                    own[i] in db.requests.Rows() && own[i].requestor.id == requestorId
                    && r.value[i] == LongView(db.items, own[i]))
  {
    if db.users.Get(requestorId).None? then Err(NotFound(UserMissing))
    else
      var own := ByRequestor(db.requests, requestorId);
      ListedInOrder(db.items, own);
      Ok(LongViews(db.items, own))
  }

  /** `getAllOtherItemRequest`: the caller must exist, then the paging pair
      must be valid when both are given; then one long view per request of
      another user, newest first, cut to the page. */
  function GetAllOtherItemRequest(db: Db, requestorId: Id, from: Option<int>, size: Option<int>)
    : (r: Result<seq<OutLongItemRequestDto>>)
    ensures requestorId !in db.users.Keys() ==> r == Err(NotFound(UserMissing))
    ensures requestorId in db.users.Keys() && PagingOf(from, size).Err? ==> r == Err(Validation(BadPaging))
    ensures r.Ok? <==> requestorId in db.users.Keys() && PagingOf(from, size).Ok?
    ensures r.Ok? ==>
              var page := PagingOf(from, size).value;
              var others := OthersPaged(db.requests, requestorId, page);
              && |r.value| == |others|
              && (page.Some? ==> |r.value| <= page.value.size)
              && (forall i, j :: 0 <= i < j < |r.value| ==> r.value[i].created >= r.value[j].created)
              && (forall i :: 0 <= i < |r.value| ==>
                    others[i] in db.requests.Rows() && others[i].requestor.id != requestorId
                    && r.value[i] == LongView(db.items, others[i]))
  {
    if db.users.Get(requestorId).None? then Err(NotFound(UserMissing))
    else
      match PagingOf(from, size)
      case Err(e) => Err(e)
      case Ok(page) =>
        OtherViews(db, requestorId, page);
        Ok(LongViews(db.items, OthersPaged(db.requests, requestorId, page)))
  }

  /** The long views of a page of other users' requests: at most a page of
      them, newest first, each the view of a stored request of another user. */
  lemma OtherViews(db: Db, requestorId: Id, page: Option<Page>)
    ensures var others := OthersPaged(db.requests, requestorId, page);
            var r := LongViews(db.items, others);
            && |r| == |others|
            && (page.Some? ==> |r| <= page.value.size)
            && (forall i, j :: 0 <= i < j < |r| ==> r[i].created >= r[j].created)
            && (forall i :: 0 <= i < |r| ==>
                  others[i] in db.requests.Rows() && others[i].requestor.id != requestorId
                  && r[i] == LongView(db.items, others[i]))
  {
    var others := OthersPaged(db.requests, requestorId, page);
    ListedInOrder(db.items, others);
    forall i | 0 <= i < |others| ensures others[i] in db.requests.Rows() && others[i].requestor.id != requestorId {
      assert others[i] in others;
    }
  }

  /** A page of other users' requests is the page's window of the unpaged
      listing. */
  lemma {:induction false} OtherPageIsWindowOfListing(db: Db, requestorId: Id, from: int, size: int)
    requires requestorId in db.users.Keys() && 0 <= from && 0 < size
    ensures GetAllOtherItemRequest(db, requestorId, Some(from), Some(size)).Ok?
    ensures GetAllOtherItemRequest(db, requestorId, Some(from), Some(size)).value
            == Slice(GetAllOtherItemRequest(db, requestorId, None, None).value, PageOf(from, size))
  {
    OtherListingUnfolds(db, requestorId, Some(from), Some(size));
    OtherListingUnfolds(db, requestorId, None, None);
    LongViewsOfSlice(db.items, Others(db.requests, requestorId), PageOf(from, size));
  }

  /** A successful listing of other users' requests is the long views of the
      page's window of those requests. */
  lemma OtherListingUnfolds(db: Db, requestorId: Id, from: Option<int>, size: Option<int>)
    requires requestorId in db.users.Keys() && PagingOf(from, size).Ok?
    ensures GetAllOtherItemRequest(db, requestorId, from, size)
            == Ok(LongViews(db.items, OthersPaged(db.requests, requestorId, PagingOf(from, size).value)))
  {
  }

  /** Viewing a page of requests is the same page of their views. */
  lemma {:induction false} LongViewsOfSlice(items: Table<Item>, rs: seq<ItemRequest>, page: Page)
    ensures LongViews(items, Slice(rs, page)) == Slice(LongViews(items, rs), page)
  {
    var left := LongViews(items, Slice(rs, page));
    var right := Slice(LongViews(items, rs), page);
    assert |left| == |right|;
    forall i | 0 <= i < |left| ensures left[i] == right[i] {
      assert right[i] == LongViews(items, rs)[Offset(page) + i];
    }
  }

  /** Long views of requests listed newest first are newest first too. */
  lemma ListedInOrder(items: Table<Item>, rs: seq<ItemRequest>)
    requires SortedDesc(rs, CreatedKey)
    ensures var r := LongViews(items, rs);
            forall i, j :: 0 <= i < j < |r| ==> r[i].created >= r[j].created
  {
    var r := LongViews(items, rs);
    forall i, j | 0 <= i < j < |r| ensures r[i].created >= r[j].created {
      assert CreatedKey(rs[i]) >= CreatedKey(rs[j]);
    }
  }

  /** A request just added shows up, with the caller's id, in the caller's
      own listing and in nobody else's "other" listing for that caller. */
  lemma AddedRequestIsListed(db: Db, dto: IncomingItemRequestDto, requestorId: Id, now: Timestamp)
    requires Valid(db) && AddItemRequest(db, dto, requestorId, now).Ok?
    ensures var db' := AddItemRequest(db, dto, requestorId, now).value.0;
            var stored := ItemRequest(db.requests.next, dto.description, db.users.Get(requestorId).value, now);
            && stored in ByRequestor(db'.requests, requestorId)
            && stored !in Others(db'.requests, requestorId)
  {
    var db' := AddItemRequest(db, dto, requestorId, now).value.0;
    var stored := ItemRequest(db.requests.next, dto.description, db.users.Get(requestorId).value, now);
    assert db'.requests.Rows()[|db.requests.Rows()|] == stored;
    assert stored.requestor.id == requestorId;
  }
}

=== FILE: item_service.dfy ===
/**
  The item service over the database: adding and updating an owner's items,
  the item views with their last/next bookings and comments, the search
  filter, and the comment gate.
 */
module ItemService {
  import opened Common
  import opened Entities
  import opened Tables
  import opened Seqs
  import opened Store
  import opened Validation
  import opened BookingRepository
  import opened BookingMapper
  import opened ItemMapper
  import opened CommentMapper

  /** A last/next booking as the item view shows it. */
  function ForItem(b: Option<Booking>): (r: Option<BookingForItemDto>)
    ensures r.Some? <==> b.Some?
    ensures r.Some? ==> r.value.id == b.value.id && r.value.bookerId == b.value.booker.id
  {
    if b.None? then None else Some(ToBookingForItemDto(b.value))
  }

  /** The comments on an item as the item view shows them, in table order. */
  function CommentViews(comments: Table<Comment>, itemId: Id): (r: seq<OutCommentDto>)
    ensures |r| == |CommentsOfItem(comments, itemId)|
    ensures forall d :: d in r <==> exists c :: c in comments.Rows() && c.item.id == itemId && d == ToOutCommentDto(c)
  {
    var cs := CommentsOfItem(comments, itemId);
    MapSeqMembers(cs, ToOutCommentDto);
    MapSeq(cs, ToOutCommentDto)
  }

  /** The full item view: the item's fields, the given last and next
      bookings, and the given comments. */
  function FullView(item: Item, last: Option<BookingForItemDto>, next: Option<BookingForItemDto>,
                    comments: seq<OutCommentDto>): (d: ItemFullDto)
    ensures ItemDto(d.id, d.name, d.description, d.available) == ToItemView(item)
    ensures d.lastBooking == last && d.nextBooking == next && d.comments == comments
  {
    ItemFullDto(item.id, item.name, item.description, item.available, last, next, comments)
  }

  /** The view the owner sees: last and next approved bookings at `now`,
      and the comments. */
  function OwnerView(db: Db, item: Item, now: Timestamp): (d: ItemFullDto)
    ensures d.lastBooking == ForItem(LastBooking(db.bookings, item.id, now))
    ensures d.nextBooking == ForItem(NextBooking(db.bookings, item.id, now))
    ensures d.comments == CommentViews(db.comments, item.id)
    ensures d.id == item.id
  {
    FullView(item, ForItem(LastBooking(db.bookings, item.id, now)),
             ForItem(NextBooking(db.bookings, item.id, now)), CommentViews(db.comments, item.id))
  }

  /** `addItem`. The fields are validated BEFORE the user is looked up, so an
      invalid item from an unknown user fails validation. On success one row
      is appended: the item under the next id, owned by the caller, answering
      the given request if any. */
  function AddItem(db: Db, userId: Id, dto: ItemDto, requestId: Option<Id>): (r: Result<(Db, ItemDto)>)
    ensures var v := ValidateItem(ToItem(dto.id, userId, dto));
            && (v.Some? ==> r == Err(Validation(v.value)))
            && (v.None? && userId !in db.users.Keys() ==> r == Err(NotFound(UserMissing)))
            && (r.Ok? <==> v.None? && userId in db.users.Keys())
    ensures r.Ok? ==>
              var (db', view) := r.value;
              var stored := Item(db.items.next, dto.name, dto.description, dto.available, userId, requestId);
              && db'.items.Rows() == db.items.Rows() + [stored]
              && db' == db.(items := db'.items)
              && view == dto.(id := db.items.next)
    ensures r.Ok? && Valid(db) ==>
              && Valid(r.value.0)
              && r.value.0.items.Get(db.items.next)
                 == Some(Item(db.items.next, dto.name, dto.description, dto.available, userId, requestId))
  {
    var item := ToItem(dto.id, userId, dto).(request := requestId);
    match ValidateItem(item)
    case Some(e) => Err(Validation(e))
    case None =>
      if db.users.Get(userId).None? then Err(NotFound(UserMissing))
      else
        var stored := item.(id := db.items.next);
        var db' := db.(items := db.items.Insert(stored));
        Ok((db', ToItemView(stored)))
  }

  /** `getItemById`. The checks, first failure wins: the caller exists, the
      item exists. The owner sees the last and next bookings; anyone else
      sees none. Everyone sees the comments. */
  function GetItemById(db: Db, userId: Id, itemId: Id, now: Timestamp): (r: Result<ItemFullDto>)
    ensures userId !in db.users.Keys() ==> r == Err(NotFound(UserMissing))
    ensures userId in db.users.Keys() && itemId !in db.items.Keys() ==> r == Err(NotFound(ItemMissing))
    ensures r.Ok? <==> userId in db.users.Keys() && itemId in db.items.Keys()
    ensures r.Ok? ==>
              var item := db.items.Get(itemId).value;
              && ItemDto(r.value.id, r.value.name, r.value.description, r.value.available) == ToItemView(item)
              && r.value.comments == CommentViews(db.comments, item.id)
              && (userId == item.owner ==> r.value == OwnerView(db, item, now))
              && (userId != item.owner ==> r.value.lastBooking.None? && r.value.nextBooking.None?)
  {
    if db.users.Get(userId).None? then Err(NotFound(UserMissing))
    else
      var item := db.items.Get(itemId);
      if item.None? then Err(NotFound(ItemMissing))
      else if userId == item.value.owner then Ok(OwnerView(db, item.value, now))
      else Ok(FullView(item.value, None, None, CommentViews(db.comments, item.value.id)))
  }

  /** `updateItem`. The checks, first failure wins: the caller exists, the
      item exists, the caller owns it, the merged item is valid. Only the
      supplied name, description and availability change; id, owner and
      request stay. */
  function UpdateItem(db: Db, userId: Id, dto: ItemDto, id: Id): (r: Result<(Db, ItemDto)>)
    ensures userId !in db.users.Keys() ==> r == Err(NotFound(UserMissing))
    ensures userId in db.users.Keys() && id !in db.items.Keys() ==> r == Err(NotFound(ItemMissing))
    ensures userId in db.users.Keys() && id in db.items.Keys() ==>
              var stored := db.items.Get(id).value;
              var merged := stored.(name := Override(dto.name, stored.name),
                                    description := Override(dto.description, stored.description),
                                    available := Override(dto.available, stored.available));
              && (stored.owner != userId ==> r == Err(NotFound(NotItemOwner)))
              && (stored.owner == userId && ValidateItem(merged).Some? ==> r == Err(Validation(ValidateItem(merged).value)))
              && (r.Ok? <==> stored.owner == userId && ValidateItem(merged).None?)
              && (r.Ok? ==> r.value.0.items.Get(id) == Some(merged) && r.value.1 == ToItemView(merged))
    ensures r.Ok? ==> r.value.0 == db.(items := r.value.0.items) && r.value.0.items.next == db.items.next
    ensures r.Ok? && Valid(db) ==>
              && Valid(r.value.0)
              && r.value.0.items.Keys() == db.items.Keys()
              && forall k :: k != id ==> r.value.0.items.Get(k) == db.items.Get(k)
  {
    if db.users.Get(userId).None? then Err(NotFound(UserMissing))
    else
      var stored := db.items.Get(id);
      if stored.None? then Err(NotFound(ItemMissing))
      else if stored.value.owner != userId then Err(NotFound(NotItemOwner))
      else
        var merged := stored.value.(name := Override(dto.name, stored.value.name),
                                    description := Override(dto.description, stored.value.description),
                                    available := Override(dto.available, stored.value.available));
        match ValidateItem(merged)
        case Some(e) => Err(Validation(e))
        case None =>
          var db' := db.(items := db.items.Put(id, merged));
          Ok((db', ToItemView(merged)))
  }

  /** An update that supplies nothing leaves a stored, valid item as it was. */
  lemma {:induction false} EmptyUpdateChangesNothing(db: Db, userId: Id, id: Id)
    requires Valid(db)
    requires userId in db.users.Keys() && id in db.items.Keys()
    requires db.items.Get(id).value.owner == userId
    requires ValidateItem(db.items.Get(id).value).None?
    ensures UpdateItem(db, userId, ItemDto(0, None, None, None), id).Ok?
    ensures UpdateItem(db, userId, ItemDto(0, None, None, None), id).value.0.items.Get(id) == db.items.Get(id)
  {
    var stored := db.items.Get(id).value;
    assert stored.(name := Override(None, stored.name),
                   description := Override(None, stored.description),
                   available := Override(None, stored.available)) == stored;
  }

  /** `getUserItems`: the caller must exist; then one owner view per item
      of the caller, by ascending id. */
  function GetUserItems(db: Db, userId: Id, now: Timestamp): (r: Result<seq<ItemFullDto>>)
    ensures r.Err? <==> userId !in db.users.Keys()
    ensures r.Err? ==> r.error == NotFound(UserMissing)
    ensures r.Ok? ==>
              var owned := ItemsOfOwner(db.items, userId);
              && |r.value| == |owned|
              && (forall i :: 0 <= i < |owned| ==> r.value[i] == OwnerView(db, owned[i], now))
              && (forall i, j :: 0 <= i < j < |r.value| ==> r.value[i].id <= r.value[j].id)
              && (forall i :: 0 <= i < |owned| ==> owned[i] in db.items.Rows() && owned[i].owner == userId)
  {
    if db.users.Get(userId).None? then Err(NotFound(UserMissing))
    else
      var owned := ItemsOfOwner(db.items, userId);
      OwnedItemsInOrder(db.items, userId);
      var views := MapSeq(owned, (it: Item) => OwnerView(db, it, now));
      Ok(views)
  }

  /** The owner's items are stored items of that owner, by ascending id. */
  lemma OwnedItemsInOrder(items: Table<Item>, owner: Id)
    ensures var owned := ItemsOfOwner(items, owner);
            && (forall i, j :: 0 <= i < j < |owned| ==> owned[i].id <= owned[j].id)
            && (forall i :: 0 <= i < |owned| ==> owned[i] in items.Rows() && owned[i].owner == owner)
  {
    var owned := ItemsOfOwner(items, owner);
    forall i, j | 0 <= i < j < |owned| ensures owned[i].id <= owned[j].id {
      assert ItemIdKey(owned[i]) <= ItemIdKey(owned[j]);
    }
    forall i | 0 <= i < |owned| ensures owned[i] in items.Rows() && owned[i].owner == owner {
      assert owned[i] in owned;
    }
  }

  /** An item the search may show: its availability is set to true. */
  predicate Bookable(it: Item) {
    it.available == Some(true)
  }

  /** The search result read item by item: each found item in turn
      contributes its view when it is available and nothing otherwise. */
  function AvailableViews(found: seq<Item>): seq<ItemDto> {
    if |found| == 0 then []
    else (if Bookable(found[0]) then [ToItemView(found[0])] else []) + AvailableViews(found[1..])
  }

  /** `findItemsByText` over the finder's result: the views of the available
      items, in the finder's order and as often as found. */
  function FindItemsByText(found: seq<Item>): (r: seq<ItemDto>)
    ensures r == AvailableViews(found)
    ensures |r| <= |found|
    ensures forall d :: d in r <==> exists it :: it in found && it.available == Some(true) && d == ToItemView(it)
  {
    var avail := Filter(found, Bookable);
    var r := MapSeq(avail, ToItemView);
    FilteredViewsAreAvailableViews(found);
    MapSeqMembers(avail, ToItemView);
    r
  }

  /** Filtering the available items and viewing them is the item-by-item
      reading of the search. */
  lemma {:induction false} FilteredViewsAreAvailableViews(found: seq<Item>)
    ensures MapSeq(Filter(found, Bookable), ToItemView) == AvailableViews(found)
  {
    if |found| > 0 {
      var head := found[0];
      var tail := found[1..];
      assert found == [head] + tail;
      FilteredViewsAreAvailableViews(tail);
      FilterCons(head, tail, Bookable);
      if Bookable(head) {
        MapSeqCons(head, Filter(tail, Bookable), ToItemView);
      }
    }
  }

  /** When the finder returns only available items, the search shows every
      one of them, in the finder's order. */
  lemma {:induction false} AllAvailableAllShown(found: seq<Item>)
    requires forall it :: it in found ==> it.available == Some(true)
    ensures FindItemsByText(found) == MapSeq(found, ToItemView)
  {
    FilterAllKept(found, Bookable);
  }

  /** `addComment`. The checks, first failure wins: the text is not empty
      (whitespace is accepted), the item exists, the author exists, the
      author has a booking of the item that ended before `now`. On success
      one comment is appended, created at that same `now`. */
  function AddComment(db: Db, userId: Id, itemId: Id, dto: IncomingCommentDto, now: Timestamp): (r: Result<(Db, OutCommentDto)>)
    ensures |dto.text| == 0 ==> r == Err(Validation(EmptyComment))
    ensures |dto.text| > 0 && itemId !in db.items.Keys() ==> r == Err(NotFound(ItemMissing))
    ensures |dto.text| > 0 && itemId in db.items.Keys() && userId !in db.users.Keys() ==> r == Err(NotFound(UserMissing))
    ensures |dto.text| > 0 && itemId in db.items.Keys() && userId in db.users.Keys() ==>
              && (|FinishedBookings(db.bookings, itemId, userId, now)| == 0 ==> r == Err(Validation(NoFinishedRental)))
              && (r.Ok? <==> |FinishedBookings(db.bookings, itemId, userId, now)| > 0)
    ensures r.Ok? ==>
              exists b :: b in db.bookings.Rows() && b.item.id == itemId && b.booker.id == userId && b.end < now
    ensures r.Ok? ==>
              var (db', view) := r.value;
              var c := Comment(db.comments.next, dto.text, db.items.Get(itemId).value, db.users.Get(userId).value, now);
              && db'.comments.Rows() == db.comments.Rows() + [c]
              && db' == db.(comments := db'.comments)
              && view == OutCommentDto(db.comments.next, dto.text, db.users.Get(userId).value.name, now)
    ensures r.Ok? && Valid(db) ==> Valid(r.value.0)
  {
    if |dto.text| == 0 then Err(Validation(EmptyComment))
    else
      var item := db.items.Get(itemId);
      if item.None? then Err(NotFound(ItemMissing))
      else
        var user := db.users.Get(userId);
        if user.None? then Err(NotFound(UserMissing))
        else
          var finished := FinishedBookings(db.bookings, itemId, userId, now);
          if |finished| == 0 then Err(Validation(NoFinishedRental))
          else
            assert finished[0] in finished;
            var stored := ToComment(dto, item.value, user.value, now).(id := db.comments.next);
            var db' := db.(comments := db.comments.Insert(stored));
            Ok((db', ToOutCommentDto(stored)))
  }

  /** A comment that was accepted shows on the item's view, for any caller. */
  lemma {:induction false} CommentShowsOnItem(db: Db, userId: Id, itemId: Id, dto: IncomingCommentDto, now: Timestamp,
                                              viewer: Id, later: Timestamp)
    requires Valid(db)
    requires AddComment(db, userId, itemId, dto, now).Ok?
    requires viewer in db.users.Keys()
    ensures var (db', view) := AddComment(db, userId, itemId, dto, now).value;
            GetItemById(db', viewer, itemId, later).Ok?
            && view in GetItemById(db', viewer, itemId, later).value.comments
  {
    var (db', view) := AddComment(db, userId, itemId, dto, now).value;
    var item := db.items.Get(itemId).value;
    var c := Comment(db.comments.next, dto.text, item, db.users.Get(userId).value, now);
    assert c in db'.comments.Rows();
    assert c.item.id == itemId;
    assert view == ToOutCommentDto(c);
    assert view in CommentViews(db'.comments, itemId);
  }
}

=== FILE: paging.dfy ===
/**
  The `from`/`size` pagination shared by the booking and item-request
  listings: both parameters present turns paging on, the pair is checked,
  and `PageRequest.of(from / size, size)` selects a window of the ordered
  result.
 */
module Paging {
  import opened Common
  import opened Seqs

  /** `PageRequest.of(index, size)`. */
  datatype Page = Page(index: nat, size: nat)

  /** The first row a page selects. */
  function Offset(p: Page): nat {
    p.index * p.size
  }

  /** The page built from a checked `from`/`size` pair. The index is the
      integer quotient, so `from` snaps down to a multiple of `size`. Java's
      truncating division and Dafny's agree on these non-negative operands. */
  function PageOf(from: int, size: int): (p: Page)
    requires 0 <= from && 0 < size
    ensures p.size == size
    ensures Offset(p) <= from < Offset(p) + size
    ensures from % size == 0 ==> Offset(p) == from
  {
    Page(from / size, size)
  }

  /** The paging decision of the listing services: with both parameters
      present the pair must satisfy `from >= 0` and `size > 0`, otherwise
      the call fails; with either absent the query is not paged. */
  function PagingOf(from: Option<int>, size: Option<int>): (r: Result<Option<Page>>)
    ensures r.Err? <==> from.Some? && size.Some? && (from.value < 0 || size.value <= 0)
    ensures r.Err? ==> r.error == Validation(BadPaging)
    ensures r == Ok(None) <==> from.None? || size.None?
    ensures r.Ok? && r.value.Some? ==>
              from.Some? && size.Some? && r.value.value.size == size.value
              && Offset(r.value.value) <= from.value < Offset(r.value.value) + size.value
  {
    if from.Some? && size.Some? then
      if from.value < 0 || size.value <= 0 then Err(Validation(BadPaging))
      else Ok(Some(PageOf(from.value, size.value)))
    else Ok(None)
  }

  /** The rows a page selects from an ordered result: positions
      `[Offset(p), Offset(p) + p.size)`, cut at the end of the result. */
  function Slice<T>(s: seq<T>, p: Page): (r: seq<T>)
    ensures |r| <= p.size
    ensures Offset(p) + p.size <= |s| ==> |r| == p.size
    ensures |s| <= Offset(p) ==> r == []
    ensures Offset(p) < |s| ==> |r| == if Offset(p) + p.size <= |s| then p.size else |s| - Offset(p)
    ensures forall i :: 0 <= i < |r| ==> Offset(p) + i < |s| && r[i] == s[Offset(p) + i]
  {
    var lo := if Offset(p) <= |s| then Offset(p) else |s|;
    var hi := if Offset(p) + p.size <= |s| then Offset(p) + p.size else |s|;
    s[lo..hi]
  }

  /** A paged or unpaged query: without a page the whole ordered result. */
  function Window<T>(s: seq<T>, page: Option<Page>): (r: seq<T>)
    ensures page.None? ==> r == s
    ensures page.Some? ==> r == Slice(s, page.value)
  {
    if page.None? then s else Slice(s, page.value)
  }

  /** Every row of a window is a row of the whole result. */
  lemma WindowSubset<T>(s: seq<T>, page: Option<Page>)
    ensures forall x :: x in Window(s, page) ==> x in s
  {
    if page.Some? {
      var r := Slice(s, page.value);
      forall x | x in r ensures x in s {
        var i :| 0 <= i < |r| && r[i] == x;
        assert s[Offset(page.value) + i] == x;
      }
    }
  }

  /** `from = 0, size = 1` over a non-empty result yields exactly its first row. */
  lemma FirstPageOfOne<T>(s: seq<T>)
    requires |s| >= 1
    ensures PagingOf(Some(0), Some(1)) == Ok(Some(Page(0, 1)))
    ensures Window(s, Some(Page(0, 1))) == [s[0]]
  {
  }

  /** A `from` that is not a multiple of `size` lands on the page that
      contains it: the window starts `from % size` rows earlier. */
  lemma FromSnapsToPageBoundary(from: int, size: int)
    requires 0 <= from && 0 < size
    ensures Offset(PageOf(from, size)) == from - from % size
  {
  }

  /** A window of a result ordered by descending key is ordered the same way. */
  lemma WindowKeepsOrder<T>(s: seq<T>, page: Option<Page>, key: T -> int)
    requires SortedDesc(s, key)
    ensures SortedDesc(Window(s, page), key)
  {
    if page.Some? {
      var r := Window(s, page);
      var o := Offset(page.value);
      forall i, j | 0 <= i < j < |r| ensures key(r[i]) >= key(r[j]) {
        assert r[i] == s[o + i] && r[j] == s[o + j];
      }
    }
  }
}

=== FILE: seqs.dfy ===
/**
  Sequence operations the repositories are built from: filtering a table in
  row order (a WHERE clause) and ordering by an integer key (ORDER BY).
 */
module Seqs {

  /** The elements of `s` satisfying `p`, in their original order. */
  function Filter<T(!new)>(s: seq<T>, p: T -> bool): (r: seq<T>)
    ensures |r| <= |s|
    ensures forall x :: x in r <==> x in s && p(x)
    ensures forall x :: multiset(r)[x] == if p(x) then multiset(s)[x] else 0
  {
    if |s| == 0 then []
    else
      var rest := Filter(s[1..], p);
      assert s == [s[0]] + s[1..];
      if p(s[0]) then [s[0]] + rest else rest
  }

  /** Filtering a sequence that starts with `x` keeps `x` exactly when it
      passes, then filters the rest. */
  lemma FilterCons<T(!new)>(x: T, rest: seq<T>, p: T -> bool)
    ensures Filter([x] + rest, p) == if p(x) then [x] + Filter(rest, p) else Filter(rest, p)
  {
    assert ([x] + rest)[1..] == rest;
  }

  /** Filtering twice is filtering once by the conjunction. */
  lemma {:induction false} FilterFilter<T(!new)>(s: seq<T>, p: T -> bool, q: T -> bool, pq: T -> bool)
    requires forall x :: pq(x) == (p(x) && q(x))
    ensures Filter(Filter(s, p), q) == Filter(s, pq)
  {
    if |s| > 0 {
      FilterFilter(s[1..], p, q, pq);
      var inner := Filter(s[1..], p);
      if p(s[0]) {
        assert Filter(s, p) == [s[0]] + inner;
        assert ([s[0]] + inner)[1..] == inner;
      }
    }
  }

  /** A filter every element passes keeps the whole sequence. */
  lemma {:induction false} FilterAllKept<T(!new)>(s: seq<T>, p: T -> bool)
    requires forall x :: x in s ==> p(x)
    ensures Filter(s, p) == s
  {
    if |s| > 0 {
      assert forall x :: x in s[1..] ==> x in s;
      FilterAllKept(s[1..], p);
      assert s == [s[0]] + s[1..];
    }
  }

  /** Filters by pointwise-equal predicates agree. */
  lemma {:induction false} FilterCongruent<T(!new)>(s: seq<T>, p: T -> bool, q: T -> bool)
    requires forall x :: x in s ==> p(x) == q(x)
    ensures Filter(s, p) == Filter(s, q)
  {
    if |s| > 0 {
      assert forall x :: x in s[1..] ==> x in s;
      FilterCongruent(s[1..], p, q);
    }
  }

  /** `f` applied to every element, in order (`stream().map(f)`). */
  function MapSeq<T, U>(s: seq<T>, f: T -> U): (r: seq<U>)
    ensures |r| == |s|
    ensures forall i :: 0 <= i < |s| ==> r[i] == f(s[i])
  {
    seq(|s|, i requires 0 <= i < |s| => f(s[i]))
  }

  /** Mapping a sequence that starts with `x` starts with the image of `x`. */
  lemma MapSeqCons<T, U>(x: T, rest: seq<T>, f: T -> U)
    ensures MapSeq([x] + rest, f) == [f(x)] + MapSeq(rest, f)
  {
    var left := MapSeq([x] + rest, f);
    var right := [f(x)] + MapSeq(rest, f);
    forall i | 0 <= i < |left| ensures left[i] == right[i] {
      if i > 0 {
        assert ([x] + rest)[i] == rest[i - 1];
      }
    }
  }

  /** An element of a mapped sequence is the image of an element of the
      original, and every image is present. */
  lemma MapSeqMembers<T, U>(s: seq<T>, f: T -> U)
    ensures forall y :: y in MapSeq(s, f) <==> exists x :: x in s && y == f(x)
  {
    var r := MapSeq(s, f);
    forall y | y in r ensures exists x :: x in s && y == f(x) {
      var i :| 0 <= i < |r| && r[i] == y;
      assert s[i] in s;
    }
    forall x | x in s ensures f(x) in r {
      var i :| 0 <= i < |s| && s[i] == x;
      assert r[i] == f(x);
    }
  }

  /** Keys never increase from left to right. */
  ghost predicate SortedDesc<T>(s: seq<T>, key: T -> int) {
    forall i, j :: 0 <= i < j < |s| ==> key(s[i]) >= key(s[j])
  }

  /** Keys never decrease from left to right. */
  ghost predicate SortedAsc<T>(s: seq<T>, key: T -> int) {
    forall i, j :: 0 <= i < j < |s| ==> key(s[i]) <= key(s[j])
  }

  /** Inserts `x` into a sequence already ordered by descending key, after
      every element whose key is strictly greater. */
  function InsertDesc<T(!new)>(x: T, s: seq<T>, key: T -> int): (r: seq<T>)
    requires SortedDesc(s, key)
    ensures SortedDesc(r, key)
    ensures multiset(r) == multiset(s) + multiset{x}
    ensures |r| == |s| + 1
    ensures key(r[0]) == key(x) || (|s| > 0 && key(r[0]) == key(s[0]))
  {
    if |s| == 0 then [x]
    else if key(x) >= key(s[0]) then [x] + s
    else
      var rest := InsertDesc(x, s[1..], key);
      assert s == [s[0]] + s[1..];
      [s[0]] + rest
  }

  /** Insertion sort by descending key (`ORDER BY key DESC`). */
  function SortDesc<T(!new)>(s: seq<T>, key: T -> int): (r: seq<T>)
    ensures SortedDesc(r, key)
    ensures multiset(r) == multiset(s)
    ensures |r| == |s|
  {
    if |s| == 0 then []
    else
      assert s == [s[0]] + s[1..];
      InsertDesc(s[0], SortDesc(s[1..], key), key)
  }

  /** Sort by ascending key (`ORDER BY key`), as a descending sort on the
      negated key. */
  function SortAsc<T(!new)>(s: seq<T>, key: T -> int): (r: seq<T>)
    ensures SortedAsc(r, key)
    ensures multiset(r) == multiset(s)
    ensures |r| == |s|
  {
    var r := SortDesc(s, x => -key(x));
    assert forall i, j :: 0 <= i < j < |r| ==> -key(r[i]) >= -key(r[j]);
    r
  }

  /** Sequences with the same multiset have the same elements. */
  lemma SameElements<T>(a: seq<T>, b: seq<T>)
    requires multiset(a) == multiset(b)
    ensures |a| == |b|
    ensures forall x :: x in a <==> x in b
  {
    assert |a| == |multiset(a)| == |b|;
    forall x ensures x in a <==> x in b {
      assert x in a <==> x in multiset(a);
      assert x in b <==> x in multiset(b);
    }
  }

  /** The first element of a descending sequence has the greatest key. */
  lemma HeadOfDescIsMax<T>(s: seq<T>, key: T -> int)
    requires SortedDesc(s, key) && |s| > 0
    ensures forall x :: x in s ==> key(x) <= key(s[0])
  {
    forall x | x in s ensures key(x) <= key(s[0]) {
      var j :| 0 <= j < |s| && s[j] == x;
      if j > 0 { assert key(s[0]) >= key(s[j]); }
    }
  }

  /** The first element of an ascending sequence has the least key. */
  lemma HeadOfAscIsMin<T>(s: seq<T>, key: T -> int)
    requires SortedAsc(s, key) && |s| > 0
    ensures forall x :: x in s ==> key(s[0]) <= key(x)
  {
    forall x | x in s ensures key(s[0]) <= key(x) {
      var j :| 0 <= j < |s| && s[j] == x;
      if j > 0 { assert key(s[0]) <= key(s[j]); }
    }
  }

  /** Filters by three predicates that split `all` without overlap hold,
      between them, every element `all` keeps, as often as it keeps it. */
  lemma FilterSplit3<T(!new)>(s: seq<T>, p: T -> bool, q: T -> bool, r: T -> bool, all: T -> bool)
    requires forall x :: x in s ==> (all(x) <==> p(x) || q(x) || r(x))
    requires forall x :: x in s ==> !(p(x) && q(x)) && !(p(x) && r(x)) && !(q(x) && r(x))
    ensures multiset(Filter(s, p)) + multiset(Filter(s, q)) + multiset(Filter(s, r)) == multiset(Filter(s, all))
  {
    var mp, mq, mr, ma := multiset(Filter(s, p)), multiset(Filter(s, q)), multiset(Filter(s, r)), multiset(Filter(s, all));
    forall x ensures (mp + mq + mr)[x] == ma[x] {
      if x !in s {
        assert multiset(s)[x] == 0;
      }
    }
    assert mp + mq + mr == ma;
  }
}

=== FILE: store.dfy ===
/**
  The database behind the JPA services: one table per entity, and the item
  and comment finders the services call (`findAllByOwnerIdOrderById`,
  `findItemsByItemRequestId`, the batched `IdIn` finder, `findAllByItem`).
 */
module Store {
  import opened Common
  import opened Entities
  import opened Tables
  import opened Seqs

  datatype Db = Db(
    users: Table<User>,
    items: Table<Item>,
    bookings: Table<Booking>,
    comments: Table<Comment>,
    requests: Table<ItemRequest>)

  /** Every stored user carries the key it is stored under. */
  ghost predicate UsersKeyed(users: Table<User>) {
    forall k :: k in users.Keys() ==> users.Get(k).value.id == k
  }

  /** Every stored item carries the key it is stored under. */
  ghost predicate ItemsKeyed(items: Table<Item>) {
    forall k :: k in items.Keys() ==> items.Get(k).value.id == k
  }

  /** Every table is well formed, and a user or item looked up by id has
      that id. */
  ghost predicate Valid(db: Db) {
    && UsersKeyed(db.users)
    && ItemsKeyed(db.items)
    && db.users.Valid()
    && db.items.Valid()
    && db.bookings.Valid()
    && db.comments.Valid()
    && db.requests.Valid()
  }

  /** A fresh schema: every table empty, every identity sequence at 1. */
  function EmptyDb(): (db: Db)
    ensures Valid(db)
    ensures db.users.Keys() == {} && db.items.Keys() == {} && db.bookings.Keys() == {}
  {
    Db(EmptyTable(), EmptyTable(), EmptyTable(), EmptyTable(), EmptyTable())
  }

  /** The ordering key of `ORDER BY id`. */
  function ItemIdKey(it: Item): int {
    it.id
  }

  /** `findAllByOwnerIdOrderById`: the items of that owner, by ascending id. */
  function ItemsOfOwner(items: Table<Item>, owner: Id): (r: seq<Item>)
    ensures SortedAsc(r, ItemIdKey)
    ensures forall it :: it in r <==> it in items.Rows() && it.owner == owner
    ensures forall it :: multiset(r)[it] == if it.owner == owner then multiset(items.Rows())[it] else 0
  {
    var mine := Filter(items.Rows(), (it: Item) => it.owner == owner);
    var r := SortAsc(mine, ItemIdKey);
    SameElements(r, mine);
    r
  }

  /** Items that answer the request `requestId`. */
  function Answers(requestId: Id): Item -> bool {
    (it: Item) => it.request == Some(requestId)
  }

  /** `findItemsByItemRequestId`: the items answering that request, in table
      order. */
  function ItemsOfRequest(items: Table<Item>, requestId: Id): (r: seq<Item>)
    ensures forall it :: it in r <==> it in items.Rows() && it.request == Some(requestId)
    ensures forall it :: multiset(r)[it] == if it.request == Some(requestId) then multiset(items.Rows())[it] else 0
    ensures |r| <= |items.Rows()|
  {
    Filter(items.Rows(), Answers(requestId))
  }

  /** Items that answer one of the requests `requestIds`. */
  function AnswersAny(requestIds: seq<Id>): Item -> bool {
    (it: Item) => it.request.Some? && it.request.value in requestIds
  }

  /** The batched finder: the items answering any of the listed requests, in
      table order. */
  function ItemsOfRequests(items: Table<Item>, requestIds: seq<Id>): (r: seq<Item>)
    ensures forall it :: it in r <==> it in items.Rows() && it.request.Some? && it.request.value in requestIds
    ensures forall it :: multiset(r)[it] ==
              if it.request.Some? && it.request.value in requestIds then multiset(items.Rows())[it] else 0
    ensures |r| <= |items.Rows()|
  {
    Filter(items.Rows(), AnswersAny(requestIds))
  }

  /** Selecting one request's items out of the batch that includes it gives
      that request's own items, in the same order. */
  lemma {:induction false} BatchThenRequest(items: Table<Item>, requestIds: seq<Id>, requestId: Id)
    requires requestId in requestIds
    ensures Filter(ItemsOfRequests(items, requestIds), Answers(requestId)) == ItemsOfRequest(items, requestId)
  {
    var both := (it: Item) => AnswersAny(requestIds)(it) && Answers(requestId)(it);
    FilterFilter(items.Rows(), AnswersAny(requestIds), Answers(requestId), both);
    FilterCongruent(items.Rows(), both, Answers(requestId));
  }

  /** `findAllByItem`: the comments on that item, in table order. */
  function CommentsOfItem(comments: Table<Comment>, itemId: Id): (r: seq<Comment>)
    ensures forall c :: c in r <==> c in comments.Rows() && c.item.id == itemId
    ensures forall c :: multiset(r)[c] == if c.item.id == itemId then multiset(comments.Rows())[c] else 0
    ensures |r| <= |comments.Rows()|
  {
    Filter(comments.Rows(), (c: Comment) => c.item.id == itemId)
  }
}

=== FILE: tables.dfy ===
/**
  A relational table as the JPA repositories see it: rows tagged with their
  primary key, kept in key (insertion) order, and an identity sequence that
  hands out the next key, starting at 1.
 */
module Tables {
  import opened Common

  datatype Table<T> = Table(entries: seq<(Id, T)>, next: Id) {

    /** Keys distinct, positive and below the identity sequence. */
    ghost predicate Valid() {
      && 1 <= next
      && (forall i :: 0 <= i < |entries| ==> 1 <= entries[i].0 < next)
      && (forall i, j :: 0 <= i < j < |entries| ==> entries[i].0 != entries[j].0)
    }

    /** The stored keys. */
    ghost function Keys(): set<Id> {
      set i | 0 <= i < |entries| :: entries[i].0
    }

    /** The rows, in table order (`findAll`). */
    function Rows(): (r: seq<T>)
      ensures |r| == |entries|
      ensures forall i :: 0 <= i < |r| ==> r[i] == entries[i].1
    {
      seq(|entries|, i requires 0 <= i < |entries| => entries[i].1)
    }

    /** Position of the first row with key `k` at or after `from`, or -1. */
    function IndexFrom(k: Id, from: nat): (r: int)
      requires from <= |entries|
      decreases |entries| - from
      ensures r == -1 || from <= r < |entries|
      ensures r >= 0 ==> entries[r].0 == k && forall j :: from <= j < r ==> entries[j].0 != k
      ensures r == -1 ==> forall j :: from <= j < |entries| ==> entries[j].0 != k
    {
      if from == |entries| then -1
      else if entries[from].0 == k then from
      else IndexFrom(k, from + 1)
    }

    /** Position of the row with key `k`, or -1. */
    function IndexOf(k: Id): (r: int)
      ensures -1 <= r < |entries|
      ensures r >= 0 ==> entries[r].0 == k
      ensures r == -1 <==> k !in Keys()
    {
      var r := IndexFrom(k, 0);
      assert r >= 0 ==> entries[r].0 in Keys();
      r
    }

    /** `findById`: the row with key `k`, or `null`. */
    function Get(k: Id): (r: Option<T>)
      ensures r.Some? <==> k in Keys()
      ensures r.Some? ==> (k, r.value) in entries && r.value in Rows()
    {
      var i := IndexOf(k);
      assert i >= 0 ==> Rows()[i] == entries[i].1;
      if i < 0 then None else Some(entries[i].1)
    }

    /** `save` of an entity with key `k`: replaces the row with that key in
        place, or appends a new row when there is none. */
    function Put(k: Id, v: T): (t: Table<T>)
      ensures t.next == next
      ensures k in Keys() ==> |t.entries| == |entries| && t.Keys() == Keys()
      ensures t.Get(k) == Some(v)
      ensures forall x :: x in t.Rows() ==> x == v || x in Rows()
      ensures Valid() && k in Keys() ==> t.Valid()
      ensures Valid() ==> forall j :: j != k ==> t.Get(j) == Get(j)
    {
      var i := IndexOf(k);
      if i < 0 then
        PutAppends(this, k, v);
        Table(entries + [(k, v)], next)
      else
        PutReplaces(this, k, v, i);
        Table(entries[i := (k, v)], next)
    }

    /** `save` of a new entity: a row under the next identity value. */
    function Insert(v: T): (t: Table<T>)
      ensures t.next == next + 1
      ensures t.Rows() == Rows() + [v]
      ensures t.Keys() == Keys() + {next}
      ensures Valid() ==> t.Valid() && t.Get(next) == Some(v)
      ensures Valid() ==> forall j :: j != next ==> t.Get(j) == Get(j)
    {
      InsertAppends(this, v);
      Table(entries + [(next, v)], next + 1)
    }

    /** `deleteById`: drops the rows with key `k`; no row is no change. */
    function Delete(k: Id): (t: Table<T>)
      ensures t.next == next
      ensures t.Keys() == Keys() - {k}
      ensures t.Get(k) == None
      ensures k !in Keys() ==> t.entries == entries
      ensures Valid() ==> t.Valid()
      ensures Valid() ==> forall j :: j != k ==> t.Get(j) == Get(j)
    {
      DeleteFacts(this, k);
      Table(DropKey(entries, k), next)
    }
  }

  /** `Delete` keeps a valid table valid and leaves a table without the key
      as it was. */
  lemma DeleteFacts<T>(a: Table<T>, k: Id)
    ensures a.Valid() ==> Table(DropKey(a.entries, k), a.next).Valid()
    ensures a.Valid() ==> forall j :: j != k ==> Table(DropKey(a.entries, k), a.next).Get(j) == a.Get(j)
    ensures k !in a.Keys() ==> DropKey(a.entries, k) == a.entries
  {
    if a.Valid() {
      DropKeyDistinct(a.entries, k);
      DeleteKeepsOthers(a, k);
    }
    if k !in a.Keys() {
      DropAbsentKey(a.entries, k);
    }
  }

  /** Dropping a key leaves every other key's row where `Get` finds it. */
  lemma DeleteKeepsOthers<T>(a: Table<T>, k: Id)
    requires a.Valid()
    ensures forall j :: j != k ==> Table(DropKey(a.entries, k), a.next).Get(j) == a.Get(j)
  {
    var t := Table(DropKey(a.entries, k), a.next);
    DropKeyDistinct(a.entries, k);
    forall j | j != k ensures t.Get(j) == a.Get(j) {
      if j in a.Keys() {
        var v := a.Get(j).value;
        var i :| 0 <= i < |a.entries| && a.entries[i] == (j, v);
        assert (j, v) in t.entries;
        GetFindsEntry(t, j, v);
      } else {
        forall m | 0 <= m < |t.entries| ensures t.entries[m].0 != j {
          var i :| 0 <= i < |a.entries| && a.entries[i] == t.entries[m];
          assert a.entries[i].0 in a.Keys();
        }
        assert j !in t.Keys();
      }
    }
  }

  /** In a table without repeated keys, `Get` finds any stored row under its
      key. */
  lemma GetFindsEntry<T>(t: Table<T>, k: Id, v: T)
    requires DistinctKeys(t.entries) && (k, v) in t.entries
    ensures t.Get(k) == Some(v)
  {
    var i :| 0 <= i < |t.entries| && t.entries[i] == (k, v);
    assert k in t.Keys();
    var j := t.IndexOf(k);
    assert t.entries[j].0 == k;
    assert i == j;
  }

  /** `Insert` appends a row under the next identity value, which no row
      holds yet in a valid table, and moves no other key. */
  lemma InsertAppends<T>(a: Table<T>, v: T)
    ensures var t := Table(a.entries + [(a.next, v)], a.next + 1);
            && t.Rows() == a.Rows() + [v]
            && t.Keys() == a.Keys() + {a.next}
            && (a.Valid() ==> t.Valid() && t.Get(a.next) == Some(v))
            && (a.Valid() ==> forall j :: j != a.next ==> t.Get(j) == a.Get(j))
  {
    var t := Table(a.entries + [(a.next, v)], a.next + 1);
    var n := |a.entries|;
    assert t.Rows() == a.Rows() + [v];
    forall x | x in t.Keys() ensures x in a.Keys() + {a.next} {
      var j :| 0 <= j < |t.entries| && t.entries[j].0 == x;
      if j < n { assert a.entries[j].0 == x; }
    }
    forall x | x in a.Keys() ensures x in t.Keys() {
      var j :| 0 <= j < n && a.entries[j].0 == x;
      assert t.entries[j].0 == x;
    }
    assert t.entries[n].0 == a.next;
    if a.Valid() {
      InsertKeepsOthers(a, v);
    }
  }

  /** In a valid table the appended row is found under its key and every
      other key reads as before. */
  lemma InsertKeepsOthers<T>(a: Table<T>, v: T)
    requires a.Valid()
    ensures var t := Table(a.entries + [(a.next, v)], a.next + 1);
            && t.Valid() && t.Get(a.next) == Some(v)
            && forall j :: j != a.next ==> t.Get(j) == a.Get(j)
  {
    var t := Table(a.entries + [(a.next, v)], a.next + 1);
    var n := |a.entries|;
    assert t.entries[n].0 == a.next;
    assert forall j :: 0 <= j < n ==> t.entries[j] == a.entries[j];
    IndexFromSame(t, a.next, 0, n);
    forall j | j != a.next ensures t.Get(j) == a.Get(j) {
      var at := a.IndexOf(j);
      if at >= 0 {
        IndexFromPrefix(a, t, j, at);
      } else {
        assert j !in t.Keys();
      }
    }
  }

  /** `Put` of an absent key appends a row and moves no other key. */
  lemma PutAppends<T>(a: Table<T>, k: Id, v: T)
    requires k !in a.Keys()
    ensures var t := Table(a.entries + [(k, v)], a.next);
            && t.Get(k) == Some(v)
            && (forall x :: x in t.Rows() ==> x == v || x in a.Rows())
            && (a.Valid() ==> forall j :: j != k ==> t.Get(j) == a.Get(j))
  {
    var t := Table(a.entries + [(k, v)], a.next);
    var n := |a.entries|;
    assert t.entries[n].0 == k;
    assert forall j :: 0 <= j < n ==> t.entries[j] == a.entries[j];
    assert forall j :: 0 <= j < n ==> a.entries[j].0 != k by {
      forall j | 0 <= j < n ensures a.entries[j].0 != k {
        assert a.entries[j].0 in a.Keys();
      }
    }
    assert t.IndexOf(k) == n by {
      IndexFromSame(t, k, 0, n);
    }
    forall x | x in t.Rows() ensures x == v || x in a.Rows() {
      var m :| 0 <= m < |t.Rows()| && t.Rows()[m] == x;
      if m < n {
        assert a.Rows()[m] == x;
      }
    }
    forall j | j != k ensures t.Get(j) == a.Get(j) {
      var at := a.IndexOf(j);
      if at >= 0 {
        IndexFromPrefix(a, t, j, at);
      } else {
        assert forall m :: 0 <= m < |t.entries| ==> t.entries[m].0 != j by {
          forall m | 0 <= m < |t.entries| ensures t.entries[m].0 != j {
            if m < n {
              assert a.entries[m].0 in a.Keys();
            }
          }
        }
        assert j !in t.Keys();
      }
    }
  }

  /** `Put` of a present key overwrites its row in place: the keys stay, and
      no other key moves. */
  lemma PutReplaces<T>(a: Table<T>, k: Id, v: T, i: int)
    requires 0 <= i < |a.entries| && a.IndexOf(k) == i
    ensures var t := Table(a.entries[i := (k, v)], a.next);
            && |t.entries| == |a.entries|
            && t.Keys() == a.Keys()
            && t.Get(k) == Some(v)
            && (forall x :: x in t.Rows() ==> x == v || x in a.Rows())
            && (a.Valid() ==> t.Valid())
            && (a.Valid() ==> forall j :: j != k ==> t.Get(j) == a.Get(j))
  {
    var t := Table(a.entries[i := (k, v)], a.next);
    forall x | x in a.Keys() ensures x in t.Keys() {
      var j :| 0 <= j < |a.entries| && a.entries[j].0 == x;
      assert t.entries[j].0 == x;
    }
    forall x | x in t.Keys() ensures x in a.Keys() {
      var j :| 0 <= j < |t.entries| && t.entries[j].0 == x;
      assert a.entries[j].0 == x;
    }
    assert t.IndexOf(k) == i by {
      assert forall j :: 0 <= j < i ==> t.entries[j] == a.entries[j];
      IndexFromSame(t, k, 0, i);
    }
    forall x | x in t.Rows() ensures x == v || x in a.Rows() {
      var m :| 0 <= m < |t.Rows()| && t.Rows()[m] == x;
      if m != i {
        assert a.Rows()[m] == x;
      }
    }
    if a.Valid() {
      forall j | j != k ensures t.Get(j) == a.Get(j) {
        var at := a.IndexOf(j);
        if at >= 0 {
          assert at != i;
          IndexFromAgrees(a, t, j, at, i);
        } else {
          assert j !in t.Keys();
        }
      }
    }
  }

  /** The empty table of a fresh schema. */
  function EmptyTable<T>(): (t: Table<T>)
    ensures t.Valid() && t.Keys() == {}
  {
    Table([], 1)
  }

  /** The entries without key `k`, in order. */
  function DropKey<T>(es: seq<(Id, T)>, k: Id): (r: seq<(Id, T)>)
    ensures |r| <= |es|
    ensures forall i :: 0 <= i < |r| ==> r[i] in es && r[i].0 != k
    ensures forall i :: 0 <= i < |es| && es[i].0 != k ==> es[i] in r
  {
    if |es| == 0 then []
    else
      assert es == [es[0]] + es[1..];
      if es[0].0 == k then DropKey(es[1..], k) else [es[0]] + DropKey(es[1..], k)
  }

  /** No key occurs twice. */
  ghost predicate DistinctKeys<T>(es: seq<(Id, T)>) {
    forall i, j :: 0 <= i < j < |es| ==> es[i].0 != es[j].0
  }

  /** Dropping a key keeps the remaining keys distinct. */
  lemma {:induction false} DropKeyDistinct<T>(es: seq<(Id, T)>, k: Id)
    requires DistinctKeys(es)
    ensures DistinctKeys(DropKey(es, k))
  {
    if |es| > 0 {
      var tail := es[1..];
      forall i, j | 0 <= i < j < |tail| ensures tail[i].0 != tail[j].0 {
        assert tail[i] == es[i + 1] && tail[j] == es[j + 1];
      }
      DropKeyDistinct(tail, k);
      var rest := DropKey(tail, k);
      if es[0].0 != k {
        forall i | 0 <= i < |rest| ensures rest[i].0 != es[0].0 {
          var m :| 0 <= m < |tail| && tail[m] == rest[i];
          assert es[m + 1] == rest[i];
        }
        DistinctCons(es[0], rest);
        assert DropKey(es, k) == [es[0]] + rest;
      }
    }
  }

  /** A row whose key no other row holds keeps a distinct sequence distinct. */
  lemma DistinctCons<T>(e: (Id, T), rest: seq<(Id, T)>)
    requires DistinctKeys(rest)
    requires forall i :: 0 <= i < |rest| ==> rest[i].0 != e.0
    ensures DistinctKeys([e] + rest)
  {
    var r := [e] + rest;
    forall i, j | 0 <= i < j < |r| ensures r[i].0 != r[j].0 {
      assert r[j] == rest[j - 1];
      if i > 0 { assert r[i] == rest[i - 1]; }
    }
  }

  lemma {:induction false} DropAbsentKey<T>(es: seq<(Id, T)>, k: Id)
    requires forall i :: 0 <= i < |es| ==> es[i].0 != k
    ensures DropKey(es, k) == es
  {
    if |es| > 0 {
      DropAbsentKey(es[1..], k);
      assert es == [es[0]] + es[1..];
    }
  }

  /** Two tables whose entries agree up to position `stop` find a key at the
      same position when it occurs there. */
  lemma {:induction false} IndexFromSame<T>(t: Table<T>, k: Id, from: nat, stop: nat)
    requires from <= stop < |t.entries|
    requires t.entries[stop].0 == k
    requires forall j :: from <= j < stop ==> t.entries[j].0 != k
    ensures t.IndexFrom(k, from) == stop
    decreases stop - from
  {
    if from < stop {
      IndexFromSame(t, k, from + 1, stop);
    }
  }

  /** Replacing the row at `changed` does not move any other key. */
  lemma IndexFromAgrees<T>(a: Table<T>, b: Table<T>, k: Id, at: int, changed: int)
    requires |a.entries| == |b.entries|
    requires 0 <= at < |a.entries| && 0 <= changed < |a.entries| && at != changed
    requires a.IndexOf(k) == at
    requires forall j :: 0 <= j < |a.entries| && j != changed ==> b.entries[j] == a.entries[j]
    requires b.entries[changed].0 == a.entries[changed].0
    requires a.Valid()
    ensures b.IndexOf(k) == at
  {
    assert a.entries[at].0 == k;
    assert forall j :: 0 <= j < at ==> a.entries[j].0 != k;
    assert a.entries[changed].0 != k;
    IndexFromSame(b, k, 0, at);
  }

  /** Appending rows does not move a key already present. */
  lemma IndexFromPrefix<T>(a: Table<T>, b: Table<T>, k: Id, at: int)
    requires |a.entries| <= |b.entries|
    requires 0 <= at < |a.entries|
    requires a.IndexOf(k) == at
    requires forall j :: 0 <= j < |a.entries| ==> b.entries[j] == a.entries[j]
    ensures b.IndexOf(k) == at
  {
    assert a.IndexFrom(k, 0) == at;
    assert forall j :: 0 <= j < at ==> b.entries[j].0 != k;
    IndexFromSame(b, k, 0, at);
  }
}

=== FILE: user_mapper.dfy ===
/** Conversions between a stored user and its view. */
module UserMapper {
  import opened Common
  import opened Entities

  /** The view of a user under the given id: email and name copied. Mapping
      the view back with the same id gives the user with that id. */
  function ToUserDto(id: Id, user: User): (d: UserDto)
    ensures d.id == id && d.email == user.email && d.name == user.name
  {
    UserDto(id, user.name, user.email)
  }

  /** The user built from a view under the given id. Viewing it again with
      the same id gives back the view, re-keyed to that id. */
  function ToUser(id: Id, dto: UserDto): (u: User)
    ensures ToUserDto(id, u) == dto.(id := id)
  {
    User(id, dto.name, dto.email)
  }

  /** Rebuilding a user from its own view loses nothing but the id. */
  lemma UserRoundTrip(id: Id, user: User)
    ensures ToUser(id, ToUserDto(id, user)) == user.(id := id)
  {
  }

  /** The booker as embedded in a booking view: the id only. */
  function ToShortUserDto(user: User): (d: ShortUserDto)
    ensures d.id == user.id
  {
    ShortUserDto(user.id)
  }
}

=== FILE: user_repository_impl.dfy ===
/**
  The in-memory user repository: a map from id to user, an id counter that
  starts at 1, and an email-uniqueness check on insertion.
 */
module UserRepositoryImpl {
  import opened Common
  import opened Entities
  import opened Validation

  datatype UserStore = UserStore(users: map<Id, User>, next: Id)

  /** The repository as constructed: no users, counter at 1. */
  function Empty(): (s: UserStore)
    ensures Valid(s) && EmailsDistinct(s.users)
  {
    UserStore(map[], 1)
  }

  /** Every user is stored under its own id, and the counter is positive. */
  ghost predicate Valid(s: UserStore) {
    && 1 <= s.next
    && forall k :: k in s.users ==> s.users[k].id == k
  }

  /** No two stored users share an email. */
  ghost predicate EmailsDistinct(users: map<Id, User>) {
    forall j, k :: j in users && k in users && j != k ==> users[j].email != users[k].email
  }

  /** `checkEmail`'s condition: some stored user already has this email. */
  predicate EmailTaken(users: map<Id, User>, email: Option<string>)
  {
    exists k | k in users :: users[k].email == email
  }

  /** `addUser`: the email is validated, then checked for uniqueness; a user
      with id 0 takes the next counter value. The store then maps the id to
      the user, and keeps every email distinct if it did before. */
  function AddUser(s: UserStore, user: User): (r: Result<(UserStore, User)>)
    ensures !ValidEmail(user.email) ==> r == Err(Validation(BadEmail))
    ensures ValidEmail(user.email) && EmailTaken(s.users, user.email) ==> r == Err(Conflict)
    ensures r.Ok? <==> ValidEmail(user.email) && !EmailTaken(s.users, user.email)
    ensures r.Ok? ==>
              var (s', stored) := r.value;
              && stored.id == (if user.id == 0 then s.next else user.id)
              && stored == user.(id := stored.id)
              && s'.next == (if user.id == 0 then s.next + 1 else s.next)
              && s'.users == s.users[stored.id := stored]
    ensures r.Ok? && Valid(s) ==> Valid(r.value.0)
    ensures r.Ok? && EmailsDistinct(s.users) ==> EmailsDistinct(r.value.0.users)
  {
    if !ValidEmail(user.email) then Err(Validation(BadEmail))
    else if EmailTaken(s.users, user.email) then Err(Conflict)
    else
      var stored := if user.id == 0 then user.(id := s.next) else user;
      var next := if user.id == 0 then s.next + 1 else s.next;
      var s' := UserStore(s.users[stored.id := stored], next);
      assert EmailsDistinct(s.users) ==> EmailsDistinct(s'.users) by {
        if EmailsDistinct(s.users) {
          forall j, k | j in s'.users && k in s'.users && j != k
            ensures s'.users[j].email != s'.users[k].email
          {
            if j == stored.id {
              assert s'.users[k] == s.users[k];
            } else if k == stored.id {
              assert s'.users[j] == s.users[j];
            }
          }
        }
      }
      Ok((s', stored))
  }

  /** The first user added to an empty repository with id 0 gets id 1. */
  lemma FirstCounterIdIsOne(user: User)
    requires user.id == 0 && ValidEmail(user.email)
    ensures AddUser(Empty(), user) == Ok((UserStore(map[1 := user.(id := 1)], 2), user.(id := 1)))
  {
  }

  /** The user an update leaves behind: supplied email and name win, `null`
      ones keep the stored values. */
  function Merge(stored: User, update: User): (m: User)
    ensures m.id == update.id
    ensures m.email == Override(update.email, stored.email)
    ensures m.name == Override(update.name, stored.name)
  {
    update.(email := Override(update.email, stored.email), name := Override(update.name, stored.name))
  }

  /** `updateUser` as written: the id must exist; `null` fields take the
      stored values; the email is checked for uniqueness only when the name
      is `null` and the email changes; then the merged email is validated. */
  function UpdateUser(s: UserStore, user: User): (r: Result<(UserStore, User)>)
    ensures user.id !in s.users ==> r == Err(NotFound(UserMissing))
    ensures r == Err(Conflict) <==>
              && user.id in s.users
              && user.name.None?
              && Merge(s.users[user.id], user).email != s.users[user.id].email
              && EmailTaken(s.users, Merge(s.users[user.id], user).email)
    ensures r.Ok? <==>
              && user.id in s.users
              && r != Err(Conflict)
              && ValidEmail(Merge(s.users[user.id], user).email)
    ensures r.Err? && r.error.Validation? ==> r.error == Validation(BadEmail)
    ensures r.Ok? ==>
              var (s', updated) := r.value;
              && updated == Merge(s.users[user.id], user)
              && s'.users == s.users[user.id := updated]
              && s'.next == s.next
    ensures r.Ok? && Valid(s) ==> Valid(r.value.0)
    ensures r.Ok? && user.name.None? && EmailsDistinct(s.users) ==> EmailsDistinct(r.value.0.users)
  {
    if user.id !in s.users then Err(NotFound(UserMissing))
    else
      var stored := s.users[user.id];
      var merged := Merge(stored, user);
      if user.name.None? && stored.email != merged.email && EmailTaken(s.users, merged.email) then
        Err(Conflict)
      else if !ValidEmail(merged.email) then Err(Validation(BadEmail))
      else
        var s' := s.(users := s.users[user.id := merged]);
        assert user.name.None? && EmailsDistinct(s.users) ==> EmailsDistinct(s'.users) by {
          if user.name.None? && EmailsDistinct(s.users) {
            DistinctAfterCheckedReplace(s.users, user.id, merged);
          }
        }
        Ok((s', merged))
  }

  /** Replacing one entry keeps emails distinct when the new email is the old
      one or is not taken. */
  lemma DistinctAfterCheckedReplace(users: map<Id, User>, id: Id, u: User)
    requires EmailsDistinct(users) && id in users
    requires u.email == users[id].email || !EmailTaken(users, u.email)
    ensures EmailsDistinct(users[id := u])
  {
    var users' := users[id := u];
    forall j, k | j in users' && k in users' && j != k
      ensures users'[j].email != users'[k].email
    {
      if j == id {
        assert users'[k] == users[k];
        if u.email == users[id].email {
        } else {
          assert users[k].email != u.email;
        }
      } else if k == id {
        assert users'[j] == users[j];
        if u.email == users[id].email {
        } else {
          assert users[j].email != u.email;
        }
      }
    }
  }

  /** Supplying a name skips the uniqueness check: a second user can take
      the first user's email. */
  lemma UpdateWithNameDuplicatesEmail()
    ensures var a := User(1, Some("Ann"), Some("a@x.io"));
            var b := User(2, Some("Bob"), Some("b@x.io"));
            var s := UserStore(map[1 := a, 2 := b], 3);
            && EmailsDistinct(s.users)
            && UpdateUser(s, User(2, Some("Bo"), Some("a@x.io"))).Ok?
            && !EmailsDistinct(UpdateUser(s, User(2, Some("Bo"), Some("a@x.io"))).value.0.users)
  {
    var a := User(1, Some("Ann"), Some("a@x.io"));
    var b := User(2, Some("Bob"), Some("b@x.io"));
    var s := UserStore(map[1 := a, 2 := b], 3);
    var r := UpdateUser(s, User(2, Some("Bo"), Some("a@x.io")));
    assert "a@x.io"[0] !in JavaWhitespace;
    assert r.Ok?;
    var users' := r.value.0.users;
    assert users'[1].email == users'[2].email;
  }

  /** `updateUser` with the uniqueness check applied whenever the email
      changes, as on insertion; otherwise the same as `UpdateUser`. Emails
      stay distinct whatever fields are supplied. */
  function UpdateUserChecked(s: UserStore, user: User): (r: Result<(UserStore, User)>)
    ensures user.id !in s.users ==> r == Err(NotFound(UserMissing))
    ensures r == Err(Conflict) <==>
              && user.id in s.users
              && Merge(s.users[user.id], user).email != s.users[user.id].email
              && EmailTaken(s.users, Merge(s.users[user.id], user).email)
    ensures r.Ok? ==>
              var (s', updated) := r.value;
              && updated == Merge(s.users[user.id], user)
              && s'.users == s.users[user.id := updated]
              && s'.next == s.next
    ensures user.name.None? ==> r == UpdateUser(s, user)
    ensures r.Ok? && EmailsDistinct(s.users) ==> EmailsDistinct(r.value.0.users)
  {
    if user.id !in s.users then Err(NotFound(UserMissing))
    else
      var stored := s.users[user.id];
      var merged := Merge(stored, user);
      if stored.email != merged.email && EmailTaken(s.users, merged.email) then Err(Conflict)
      else if !ValidEmail(merged.email) then Err(Validation(BadEmail))
      else
        var s' := s.(users := s.users[user.id := merged]);
        assert EmailsDistinct(s.users) ==> EmailsDistinct(s'.users) by {
          if EmailsDistinct(s.users) {
            DistinctAfterCheckedReplace(s.users, user.id, merged);
          }
        }
        Ok((s', merged))
  }

  /** `getUserById`: the stored user, failing exactly when the id is absent. */
  function GetUserById(s: UserStore, id: Id): (r: Result<User>)
    ensures r.Err? <==> id !in s.users
    ensures r.Err? ==> r.error == NotFound(UserMissing)
    ensures r.Ok? ==> r.value == s.users[id]
  {
    if id !in s.users then Err(NotFound(UserMissing)) else Ok(s.users[id])
  }

  /** `removeUser`: drops that id only; an absent id changes nothing. */
  function RemoveUser(s: UserStore, id: Id): (s': UserStore)
    ensures id !in s'.users
    ensures s'.users.Keys == s.users.Keys - {id}
    ensures forall k :: k in s'.users ==> s'.users[k] == s.users[k]
    ensures id !in s.users ==> s' == s
    ensures Valid(s) ==> Valid(s')
    ensures EmailsDistinct(s.users) ==> EmailsDistinct(s'.users)
  {
    if id !in s.users then s else s.(users := s.users - {id})
  }

  /** `getAllUsers`: the stored users, each exactly once per id. */
  function GetAllUsers(s: UserStore): (r: set<User>)
    ensures forall u :: u in r <==> exists k :: k in s.users && s.users[k] == u
    ensures Valid(s) ==> forall u :: u in r ==> u.id in s.users && s.users[u.id] == u
  {
    set k | k in s.users :: s.users[k]
  }
}

=== FILE: user_service.dfy ===
/**
  The user service over the users table: creation with an email check,
  partial update, lookup, removal and the full listing.
 */
module UserService {
  import opened Common
  import opened Entities
  import opened Tables
  import opened Seqs
  import opened Store
  import opened Validation
  import opened UserMapper

  /** `addUser`: the email must be present and not blank; the user is then
      saved as a new row under the next identity value, and its view carries
      that id. */
  function AddUser(db: Db, dto: UserDto): (r: Result<(Db, UserDto)>)
    ensures r.Err? <==> !ValidEmail(dto.email)
    ensures r.Err? ==> r.error == Validation(BadEmail)
    ensures r.Ok? ==>
              var (db', view) := r.value;
              && db'.users.Rows() == db.users.Rows() + [User(db.users.next, dto.name, dto.email)]
              && db' == db.(users := db'.users)
              && view == dto.(id := db.users.next)
    ensures r.Ok? && Valid(db) ==>
              && Valid(r.value.0)
              && r.value.0.users.Get(db.users.next) == Some(User(db.users.next, dto.name, dto.email))
              && r.value.0.users.Keys() == db.users.Keys() + {db.users.next}
  {
    var user := ToUser(dto.id, dto);
    if !ValidEmail(user.email) then Err(Validation(BadEmail))
    else
      var stored := user.(id := db.users.next);
      var db' := db.(users := db.users.Insert(stored));
      Ok((db', ToUserDto(stored.id, stored)))
  }

  /** `updateUser`: the id must exist; a supplied email or name replaces the
      stored one and a `null` keeps it; the merged user must have a valid
      email. Only that row changes. */
  function UpdateUser(db: Db, dto: UserDto, id: Id): (r: Result<(Db, UserDto)>)
    ensures id !in db.users.Keys() ==> r == Err(NotFound(UserMissing))
    ensures id in db.users.Keys() ==>
              var stored := db.users.Get(id).value;
              var merged := stored.(email := Override(dto.email, stored.email),
                                    name := Override(dto.name, stored.name));
              && (r.Ok? <==> ValidEmail(merged.email))
              && (r.Err? ==> r.error == Validation(BadEmail))
              && (r.Ok? ==> r.value.0.users.Get(id) == Some(merged)
                            && r.value.1 == ToUserDto(id, merged))
    ensures r.Ok? ==> r.value.0 == db.(users := r.value.0.users)
    ensures r.Ok? && Valid(db) ==>
              && Valid(r.value.0)
              && r.value.0.users.Keys() == db.users.Keys()
              && forall k :: k != id ==> r.value.0.users.Get(k) == db.users.Get(k)
  {
    var stored := db.users.Get(id);
    if stored.None? then Err(NotFound(UserMissing))
    else
      var s := stored.value;
      var merged := s.(email := Override(dto.email, s.email), name := Override(dto.name, s.name));
      if !ValidEmail(merged.email) then Err(Validation(BadEmail))
      else
        var users' := db.users.Put(id, merged);
        assert Valid(db) ==> UsersKeyed(users') by {
          if Valid(db) {
            forall k | k in users'.Keys() ensures users'.Get(k).value.id == k {
              if k != id {
                assert users'.Get(k) == db.users.Get(k);
              }
            }
          }
        }
        Ok((db.(users := users'), ToUserDto(id, merged)))
  }

  /** `getUserById`: the stored user's view, failing exactly when the id is
      absent. */
  function GetUserById(db: Db, id: Id): (r: Result<UserDto>)
    ensures r.Err? <==> id !in db.users.Keys()
    ensures r.Err? ==> r.error == NotFound(UserMissing)
    ensures r.Ok? ==> var u := db.users.Get(id).value;
                      r.value.email == u.email && r.value.name == u.name && r.value.id == id
  {
    var u := db.users.Get(id);
    if u.None? then Err(NotFound(UserMissing)) else Ok(ToUserDto(id, u.value))
  }

  /** `removeUser`: the row with that id is gone; an absent id is no error
      and no change. Nothing else in the database changes. */
  function RemoveUser(db: Db, id: Id): (db': Db)
    ensures id !in db'.users.Keys()
    ensures db'.users.Keys() == db.users.Keys() - {id}
    ensures id !in db.users.Keys() ==> db'.users.Rows() == db.users.Rows()
    ensures Valid(db) ==> Valid(db') && forall j :: j != id ==> db'.users.Get(j) == db.users.Get(j)
    ensures db' == db.(users := db'.users)
  {
    db.(users := db.users.Delete(id))
  }

  /** `getAllUsers`: one view per stored user, in table order, each under
      the user's own id. */
  function GetAllUsers(db: Db): (r: seq<UserDto>)
    ensures |r| == |db.users.Rows()|
    ensures forall i :: 0 <= i < |r| ==>
              var u := db.users.Rows()[i];
              r[i].id == u.id && r[i].email == u.email && r[i].name == u.name
  {
    MapSeq(db.users.Rows(), (u: User) => ToUserDto(u.id, u))
  }

  /** A user just added can be read back under the id it was given, and its
      view is the one `addUser` returned. */
  lemma AddThenGet(db: Db, dto: UserDto)
    requires Valid(db) && AddUser(db, dto).Ok?
    ensures var (db', view) := AddUser(db, dto).value;
            GetUserById(db', view.id) == Ok(view)
  {
  }

  /** After removal the user can no longer be read, and a later update of
      that id fails as not found. */
  lemma RemoveThenGetFails(db: Db, id: Id, dto: UserDto)
    ensures GetUserById(RemoveUser(db, id), id) == Err(NotFound(UserMissing))
    ensures UpdateUser(RemoveUser(db, id), dto, id) == Err(NotFound(UserMissing))
  {
  }

  /** An update that supplies neither email nor name changes no field of a
      valid user, so the update succeeds exactly when the stored email is
      valid and then leaves the row as it was. */
  lemma EmptyUpdateKeepsUser(db: Db, id: Id)
    requires Valid(db) && id in db.users.Keys()
    ensures var r := UpdateUser(db, UserDto(0, None, None), id);
            && (r.Ok? <==> ValidEmail(db.users.Get(id).value.email))
            && (r.Ok? ==> r.value.0.users.Get(id) == db.users.Get(id))
  {
  }
}

=== FILE: validation.dfy ===
/**
  The field validations shared by the in-memory repositories and the
  services: an item needs a name, a description and an availability flag;
  a user needs an email.
 */
module Validation {
  import opened Common
  import opened Entities

  /** `validate(Item)`: the first failing field check, or `None`. The name is
      checked first, then the description, then the availability flag. */
  function ValidateItem(item: Item): (r: Option<Invalid>)
    ensures r.None? <==>
              && item.name.Some? && !IsBlank(item.name.value)
              && item.description.Some? && !IsBlank(item.description.value)
              && item.available.Some?
    ensures IsNullOrBlank(item.name) ==> r == Some(BadName)
    ensures !IsNullOrBlank(item.name) && IsNullOrBlank(item.description) ==> r == Some(BadDescription)
    ensures r == Some(BadAvailable) <==>
              !IsNullOrBlank(item.name) && !IsNullOrBlank(item.description) && item.available.None?
  {
    if IsNullOrBlank(item.name) then Some(BadName)
    else if IsNullOrBlank(item.description) then Some(BadDescription)
    else if item.available.None? then Some(BadAvailable)
    else None
  }

  /** `validate(User)`: the email is present and holds a character that is
      not whitespace (null, empty and blank are all refused). */
  predicate ValidEmail(email: Option<string>)
  {
    !IsNullOrBlank(email)
  }

  /** An email is accepted exactly when it is present and has a character
      that is not whitespace; an accepted email is therefore non-empty. */
  lemma ValidEmailHasVisibleChar(email: Option<string>)
    ensures ValidEmail(email) <==>
              email.Some? && exists i :: 0 <= i < |email.value| && email.value[i] !in JavaWhitespace
    ensures ValidEmail(email) ==> |email.value| > 0
  {
  }
}
